=== FILE: README.md ===
# CRLite audit dashboard and CT-log lag report — a Dafny model

The repository has two small programs.

- **`src/main.py`** builds an HTML heatmap of the CRLite CRL-downloader audit. For a sliding window of 14 days × 2 daily generations, it does the following:
  - downloads each `crl-audit.json` snapshot into a local cache, and deletes cache files that fall outside the window;
  - folds the cached snapshots into a per-issuer table keyed by the entry's `Url`;
  - colours every (issuer, slot) cell from the entry's `Kind` and `Age`;
  - marks jumps of more than 250 in `NumRevocations` between neighbouring slots;
  - orders the rows by the issuer's URL in lower case.
- **`src/ct_status.py`** reports how far each CT log is ahead of what CRLite last saw. It does the following:
  - finds the newest `ct-logs.json` manifest by probing today and each of the six days before it, version 1 before version 0;
  - polls every active log's `get-sth` endpoint;
  - prints, per log sorted by short URL, the entry lag (`tree_size - MaxEntry`) and any failure.

The model keeps the decision logic and turns the outside world into parameters:

- **Clock.** The clock is a function `dateOf: nat -> string`, giving the `YYYYMMDD` string *i* days back.
- **Dashboard storage.** The cache directory is a `map` from file name (`<slot>.json`) to a `Document`. The bucket is a `map` from URL to `Document`.
- **CT network calls.** The three network calls of the CT tool become functions passed in:
  - `headOk` for the HEAD probe;
  - `download` for the manifest;
  - `poll` for `get-sth`.
- **Python's dict.** The table is an explicit insertion order next to a `map`.
- **`sorted` and `list.sort`.** Both are a stable insertion sort on `seq`.

Modules, one file each:

| file | module | contents |
|---|---|---|
| `results.dfy` | `Results` | `Option` and `Result` |
| `strings.dfy` | `Strings` | the Python string operations used: `in`, `startswith`/`endswith`, `rstrip`, `split(c)[0]`, ASCII `lower`, string ordering, `int()` on a decimal string |
| `seqs.dfy` | `Seqs` | stable sort, filter, filter-map and their laws |
| `audit.dfy` | `Audit` | the snapshot JSON as read: entries whose fields may be missing, counts that may not be integers |
| `slots.dfy` | `Slots` | the window of slots, `check_for_updates`, `update_files`, and the first half of `main` |
| `timeline.dfy` | `Timeline` | `load_cached_data` as a fold, and the loops that compute it |
| `classify.dfy` | `Classify` | `is_valid` and `get_status_color` |
| `heatmap.dfy` | `Heatmap` | the row order, the per-row scan of `create_heatmap_html`, and `main` |
| `ct_status.dfy` | `CtStatus` | all of `src/ct_status.py` except the HTTP calls and the printing |

Four behaviours of the code that the model reproduces as they are:

- **Row order.** Rows are ordered only by the lower-cased issuer URL; there is no severity ranking (`src/main.py:200-201`).
- **Case sensitivity.** The `Kind` test is a case-sensitive substring test, so "valid" and "warning" in lower case are errors (`src/main.py:161-166`, `Classify.LowerCaseKindsAreErrors`).
- **CT report order.** The CT report is ordered by short URL, not by lag (`src/ct_status.py:133`).
- **Cache sweep.** Files outside the window are removed only when something had to be fetched: `main` calls `update_files` only for a non-empty list (`src/main.py:343-344`).

## Model

| member | source | states |
|---|---|---|
| Slots.FileUrls | src/main.py:27-39 | two slots per date, in date order; slot j is generation j mod 2 of date j div 2, named `date-k` and fetched from `BASE_URL/date-k/crl-audit.json` |
| Slots.ExpectedSlots | src/main.py:27-39 | the window has 28 slots, slot j being generation j mod 2 of the day j div 2 back |
| Slots.ExpectedSlotShape | src/main.py:34-38 | every slot of the window is some day's generation 0 or 1 |
| Slots.CachePathInjective | src/main.py:41-43 | two different slot names never share a cache file |
| Slots.CheckForUpdates | src/main.py:75-85 | the slots needing an update are exactly the window's slots without a cache file, in window order and with their multiplicity |
| Slots.FetchAll | src/main.py:102-109 | the fetch loop never changes a file already cached; a file is present afterwards iff it was cached or belongs to a needed slot whose URL answered |
| Slots.FetchAllStores | src/main.py:60-71 | a needed slot that was not cached and whose URL answered is cached afterwards with exactly the fetched document |
| Slots.UpdateFiles | src/main.py:87-109 | removes exactly the cached files outside the window; keeps every expected file untouched; caches every needed slot whose URL answered, with the fetched content |
| Slots.SlotInWindow | src/main.py:36-43 | a slot of the window is fetched from its own audit URL and cached under an expected file name |
| Slots.NeedsInWindow | src/main.py:80-85 | every slot check_for_updates reports is fetched from its own URL and cached under an expected file name |
| Slots.RefreshCoverage | src/main.py:341-344 | after main's refresh a slot of the window is cached iff it already was or its URL answered |
| Slots.RefreshKeepsCached | src/main.py:60-62 | an already cached slot is never downloaded again; its content is unchanged |
| Slots.RefreshStoresFetched | src/main.py:64-71 | a missing slot whose URL answered now holds the downloaded document |
| Slots.RefreshSweep | src/main.py:341-344 | when something was missing, nothing outside the window survives; when nothing was missing, the cache is left exactly as it was, stray files included |
| Timeline.SortedSlotNames | src/main.py:120-121 | the slot identifiers in sorted order: 28 of them, ascending as strings, a permutation of the window's names |
| Timeline.SlotItems | src/main.py:122-127 | a cached, readable slot contributes each of its entries; a missing or unreadable file contributes none |
| Timeline.StreamMembership | src/main.py:120-127 | an entry is visited iff it is in the readable cached file of one of the slots |
| Timeline.FoldInvariants | src/main.py:128-137 | the key order lists each key of the table exactly once, and the table holds no status from a "Not Fresh" entry |
| Timeline.FoldOrderGrows | src/main.py:131-136 | one more entry either leaves the key order alone or appends its key, only when the entry is kept and its key is new |
| Timeline.FoldOrder | src/main.py:131-136 | the key order is insertion order: of two keys, the one listed first is the one whose first kept entry was read first |
| Timeline.FoldKeys | src/main.py:128-132 | an issuer key is in the table iff some kept entry carries it |
| Timeline.FoldFirstWins | src/main.py:131-136 | an issuer's url and subject come from the first kept entry for its key |
| Timeline.FoldStatusSlots | src/main.py:137-143 | an issuer has a status for a slot iff some kept entry for that key was read from that slot |
| Timeline.FoldLastWins | src/main.py:137-143 | a later entry for the same key and slot overwrites an earlier one |
| Timeline.LoadSlot | src/main.py:127-143 | the entry loop over one file advances the fold by that file's entries |
| Timeline.LoadOneSlot | src/main.py:121-126 | one iteration of the slot loop advances the fold by that slot's items, none for a missing or unreadable file |
| Timeline.LoadSlots | src/main.py:120-145 | the slot loop computes the fold over every entry of the slots, in slot order |
| Timeline.StatusFromCache | src/main.py:122-137 | a status in the table is for one of the window's slots whose cache file is present and readable |
| Timeline.StatusesFromCache | src/main.py:120-143 | every status in the table comes from a readable cached slot of the window |
| Timeline.LoadCachedData | src/main.py:111-147 | returns the sorted slot identifiers and the fold of their entries: well formed, with no "Not Fresh" status, every status from a readable cached slot |
| Classify.IsValid | src/main.py:149-166 | the category is valid iff "Valid" or "Empty" occurs in the kind; otherwise warning iff "Warning" occurs; otherwise error; the flag is true exactly for valid |
| Classify.ValidWherever | src/main.py:161-162 | "Valid" or "Empty" anywhere in the kind makes it valid, whatever surrounds it |
| Classify.LowerCaseKindsAreErrors | src/main.py:161-166 | the test is case-sensitive: "valid" and "warning" in lower case are errors |
| Classify.WarningKindIsWarning | src/main.py:163-164 | the kind "Warning" by itself is a warning |
| Classify.StatusColor | src/main.py:169-194 | red iff error; yellow iff warning, or valid with an hour count above 336; green iff valid with no such hour count; never the empty-cell grey |
| Classify.StaleThreshold | src/main.py:183-187 | for a valid kind and an age `<n>h…`, the colour is yellow iff n > 336 |
| Classify.StaleBoundary | src/main.py:186-187 | "336h0m0s" stays green and "337h0m0s" turns yellow |
| Classify.UnparseableAgeIsGreen | src/main.py:183-189 | for any valid kind, an age whose text before the first 'h' is not an integer fails open to green |
| Classify.AgesWithoutHourCount | src/main.py:183-189 | the default age "N/A" and an age under an hour, "45m0s", have no hour count, so a valid entry with either is green |
| Classify.AgeOnlyMattersWhenValid | src/main.py:191-194 | warning and error colours do not depend on the age |
| Strings.RStrip | src/ct_status.py:57 | the result is a prefix of the input without the given trailing character, and only that character was removed |
| Strings.Lower | src/main.py:201 | the result has the input's length; every ASCII letter 'A'..'Z' becomes the matching 'a'..'z', and every other character is unchanged, so no upper-case ASCII letter remains |
| Strings.ParseNatToString | src/main.py:185 | `int()` reads back the decimal text of any natural number |
| Heatmap.Delta | src/main.py:240-248 | with two integer counts the change is their difference, otherwise 0; the up marker iff the change exceeds 250, the down marker iff it is below -250 |
| Heatmap.ScanRow | src/main.py:232-268 | the column loop produces one cell per slot, each equal to its closed-form description (status, colour, change against the remembered count) |
| Heatmap.CellShowsStatus | src/main.py:233-238 | a cell is grey iff the issuer has no status for that slot; otherwise it shows that status |
| Heatmap.GapResetsComparison | src/main.py:266-268 | the first cell, and a cell after a gap, is compared with nothing: no change and no marker |
| Heatmap.NonIntegerCountsAreNotCompared | src/main.py:242-243 | a non-integer count on either side gives no change and no marker |
| Heatmap.NeighboursCompared | src/main.py:242-249 | two neighbouring integer counts: the change is their difference and the marker follows the threshold |
| Heatmap.ThresholdIsStrict | src/main.py:244-248 | a change of exactly ±250 is not marked, ±251 is |
| Heatmap.ChangesTelescope | src/main.py:242-249 | along an unbroken run of integer counts, the changes shown add up to the last count minus the first |
| Heatmap.DisplayUrl | src/main.py:229 | a URL of at most 40 characters is shown whole; a longer one is shown as its first 40 characters followed by "..." |
| Heatmap.SortedIssuers | src/main.py:200-201 | the rows are exactly the table's items, each once, ascending by lower-cased URL |
| Heatmap.PermutedRows | src/main.py:200-201 | any rearrangement of the dict's items holds every issuer with its own record and no key twice |
| Heatmap.RowOrderStable | src/main.py:200-201 | issuers with the same lower-cased URL keep the dict's key order, which is the order of their first kept entries (`Timeline.FoldOrder`) |
| Heatmap.RenderRow | src/main.py:227-268 | one dict item becomes a row with its key, URL, shortened URL, subject and the scanned cell of every slot |
| Heatmap.BuildGrid | src/main.py:227-268 | one grid row per issuer, in row order, each the rendering of that issuer over every slot |
| Heatmap.GridCoversTable | src/main.py:200-231 | the grid lists every issuer of the table exactly once, with its own URL, ascending by lower-cased URL |
| Heatmap.EmptyTableIff | src/main.py:128-136 | the table is empty iff no readable cached file of the window holds a fresh entry |
| Heatmap.RenderRows | src/main.py:227-268 | for a non-empty table the rows are exactly the table's issuers in row order, each rendered over every slot; so there is at least one row, each with a cell per slot |
| Heatmap.Dashboard | src/main.py:338-351 | main refreshes the cache; it ends with "no data" iff no readable cached file of the window holds a fresh entry; otherwise the page has the 28 sorted slot columns and its rows are the rendering, in row order, of the table loaded from the refreshed cache: at least one row, with a cell per column |
| CtStatus.CandidateAt | src/ct_status.py:19-23 | the probe for day d, version slot v is that day's manifest URL for version [1, 0][v] |
| CtStatus.FirstHit | src/ct_status.py:25-28 | the index of a candidate that answers, with every earlier candidate failing; none iff no candidate answers |
| CtStatus.ProbeDay | src/ct_status.py:21-30 | one day's probes: version 1, then version 0, stopping at the first that answers |
| CtStatus.LatestCtLogsUrl | src/ct_status.py:11-35 | at most fourteen probes, stopping at the first URL that answers; that URL is returned; when none answers, all fourteen were tried and the error is the "last 7 days" message |
| CtStatus.FirstHitIs | src/ct_status.py:19-28 | a candidate that answers after only failures is the one chosen |
| CtStatus.NewestVersionFirst | src/ct_status.py:19-33 | today's version 1, then today's version 0, then yesterday's version 1; the last probe is version 0 six days back |
| CtStatus.WithScheme | src/ct_status.py:51-53 | the result starts with "http"; it is the input unchanged iff the input did, and otherwise it is "https://" followed by the input |
| CtStatus.SthUrl | src/ct_status.py:48-57 | the polled URL starts with "http" and ends with "/ct/v1/get-sth"; it is the input iff the input already had both; it always begins with the input with its scheme added ("https://" for a bare host) and trailing '/' removed; when that URL already ends with the path, the result is exactly that URL (so "x.org/ct/v1/get-sth" becomes "https://x.org/ct/v1/get-sth"); otherwise the result is that URL with trailing '/' removed, followed by the path, with a single '/' before the path |
| CtStatus.SthUrlIdempotent | src/ct_status.py:52-57 | normalising a normalised URL changes nothing |
| CtStatus.SthUrlOfBareHost | src/ct_status.py:52-57 | "x.org/" becomes "https://x.org/ct/v1/get-sth" |
| CtStatus.ProcessLog | src/ct_status.py:66-118 | none iff the log is inactive; the result carries the entry's fields; error "Failed to get STH" iff the poll failed or lacks a key; tree size from the STH; ratio 100·MaxEntry/tree_size iff tree_size > 0; time difference sth.timestamp − MaxTimestamp iff both are positive |
| CtStatus.LagOf | src/ct_status.py:139-146 | the URL, time difference, tree size and error are copied from process_log's result; the entry lag is present iff the tree size is, and then MaxEntry plus the lag is the tree size |
| CtStatus.Report | src/ct_status.py:134-146 | a record is appended iff the log is active |
| CtStatus.ReportLogs | src/ct_status.py:134-146 | the loop appends, in order, the record of every active log |
| CtStatus.LagsLength | src/ct_status.py:133-146 | the printed list has one record per active log |
| CtStatus.LagsMembership | src/ct_status.py:133-146 | a record is printed iff it is the record of some log of the manifest |
| CtStatus.LagsSorted | src/ct_status.py:133 | the printed list is ordered by URL |
| CtStatus.LagsErrorIffNoLag | src/ct_status.py:80-90 | a printed record lacks an entry lag iff it has an error, and that error is "Failed to get STH" |
| CtStatus.CtMain | src/ct_status.py:120-159 | no manifest: the "last 7 days" error; a failed download: that failure; otherwise the records of the active logs, sorted by short URL |
| Seqs.SortBy | src/main.py:200-201 | the result is sorted by the key and is a permutation of the input |
| Seqs.SortByStable | src/ct_status.py:133 | elements with equal keys keep their relative order |
| Seqs.Filter | src/main.py:80-85 | the kept elements are exactly those satisfying the test, in their original order and with their multiplicity |

## Left out

- **HTTP and JSON.** The HTTP requests, timeouts, status-code checks and JSON parsing are left out. The bucket, the HEAD probe, the manifest download and the STH poll are parameters, and a file that fails to parse is the `Unreadable` document.
- **The clock.** `datetime.now()` and `strftime` are the parameter `dateOf`.
- **One window per run.** The model reads the clock once per run. `src/main.py` reads it again in each call of `get_file_urls` (line 21): from `check_for_updates` (81), `update_files` (90) and `load_cached_data` (120). A run that crosses midnight uses different windows, which the model does not cover. In such a run, a missing slot of the old window is fetched after the new window's sweep and stays in the cache. `Slots.RefreshSweep` and `Heatmap.Dashboard` assume one window.
- **The page text.** The HTML, CSS and JavaScript of the page are left out, along with the date headers, the per-cell JSON tooltip data and the `'` escaping. The model stops at the grid of cells: colour, status, change and marker.
- **Side effects.** Writing the page, every `print`, the "Removed …" and "Error …" messages and the exit codes are left out. A failing `unlink`, which the program only reports, is treated as always succeeding.
- **Exceptions.** Loading a file stops at the first exception (for example, a `Kind` that is not a string). Entries before it are kept. The model treats every entry of a readable file as well typed, so this partial load is left out.
- **JSON nulls in an entry.** The model reads a JSON `null` field like a missing one and applies the `get` default. Python does not:
  - a `null` `Kind` raises `TypeError` at `src/main.py:128`, and the rest of that file is dropped (144); the model shows a red "N/A" cell and goes on;
  - a `null` `Url` makes `.lower()` fail at `src/main.py:201`, and the page is never produced; the model shows "";
  - a `null` or non-string `Age` on a valid `Kind` raises `AttributeError` at `src/main.py:185`, which the `except` at 188 does not catch, so the page is never produced; the model shows green.
- **Boolean counts.** `bool` counts, which Python treats as `int`, are not distinguished.
- **Missing manifest keys.** In the source, a missing key in a manifest entry raises `KeyError`, which `main` catches at `src/ct_status.py:157-159`: it prints no report and exits with status 1. The model gives every key as a field, so this failure is not modelled:
  - a missing `ShortURL` is raised by the sort key at line 133;
  - a missing `LogID`, `MinEntry`, `MaxEntry` or `MaxTimestamp` is raised in `process_log` (69-72);
  - the model's `None` `LogID` is a JSON `null`, which the source treats as an inactive log.
- **Non-numeric STH fields.** A `tree_size` or `timestamp` that is not a number is left out.
- **Download failure text.** The exact message of a failed manifest download is left to the `download` parameter.
- CtStatus.ProcessLog: the ratio and the time difference are kept as exact integers, the quotient 100·MaxEntry / tree_size and the difference in milliseconds. The floating-point division and the `:.2f` / `:+.2f` formatting are not modelled.
- Classify.StatusColor: the hour count is read with a simplified `int()`: an optional sign and ASCII digits. Surrounding whitespace, underscores and non-ASCII digits, which Python also accepts, are not modelled.
- Heatmap.SortedIssuers: `lower()` is ASCII-only; Unicode case mapping is not modelled.

=== FILE: audit.dfy ===
/** The CRL-audit snapshot data as the dashboard reads it from a cached JSON file: one
    document per slot, holding a list of per-issuer entries whose fields may each be
    missing. */
module Audit {
  import opened Results

  /** A JSON `NumRevocations` value. Only a JSON integer is a number the row scan can
      subtract; anything else (a string such as the default `'0'`, a float, `null`) is
      kept as its text. */
  datatype Count = IntCount(n: int) | NonIntCount(raw: string)

  /** One element of a snapshot's `Entries` list; `None` is a missing key. */
  datatype Entry = Entry(
    url: Option<string>,
    issuerSubject: Option<string>,
    kind: Option<string>,
    numRevocations: Option<Count>,
    errors: Option<string>,
    age: Option<string>,
    sha256Sum: Option<string>)

  /** A cached file: either a JSON object whose `Entries` list was read (an object
      without `Entries` reads as the empty list), or a file that fails to load. */
  datatype Document = Snapshot(entries: seq<Entry>) | Unreadable
}

=== FILE: classify.dfy ===
/** The classification of one cell (src/main.py: is_valid and get_status_color): the
    health category read off the free-text `Kind`, and the background colour, which
    also looks at the hour count at the front of `Age`. */
module Classify {
  import opened Results
  import opened Strings

  datatype Category = Valid | Warning | Error

  /** The cell colours of the grid; `Grey` is the colour of a slot with no data. */
  datatype Color = Green | Yellow | Red | Grey

  /** A valid entry older than this many hours is shown in yellow (two weeks). */
  const STALE_HOURS: int := 336

  /** is_valid: a case-sensitive substring test, "Valid" or "Empty" first, then
      "Warning"; the flag is true exactly for the valid category. */
  function IsValid(kind: string): (r: (bool, Category))
    ensures r.0 <==> r.1 == Valid
    ensures r.1 == Valid <==> (exists i :: OccursAt(kind, "Valid", i)) || (exists i :: OccursAt(kind, "Empty", i))
    ensures r.1 == Warning <==>
              (forall i :: !OccursAt(kind, "Valid", i) && !OccursAt(kind, "Empty", i))
              && exists i :: OccursAt(kind, "Warning", i)
  {
    ContainsIffOccurs(kind, "Valid");
    ContainsIffOccurs(kind, "Empty");
    ContainsIffOccurs(kind, "Warning");
    if Contains(kind, "Valid") || Contains(kind, "Empty") then (true, Valid)
    else if Contains(kind, "Warning") then (false, Warning)
    else (false, Error)
  }

  function CategoryOf(kind: string): Category {
    IsValid(kind).1
  }

  /** Any kind with "Valid" or "Empty" somewhere in it is valid, whatever surrounds it
      and whatever else it says. */
  lemma ValidWherever(pre: string, post: string)
    ensures CategoryOf(pre + "Valid" + post) == Valid
    ensures CategoryOf(pre + "Empty" + post) == Valid
  {
    assert StartsWith("Valid", "Valid");
    assert StartsWith("Empty", "Empty");
    ContainsInContext(pre, "Valid", post, "Valid");
    ContainsInContext(pre, "Empty", post, "Empty");
    ContainsIffOccurs(pre + "Valid" + post, "Valid");
    ContainsIffOccurs(pre + "Empty" + post, "Empty");
  }

  /** A string cannot contain a pattern that has a character the string lacks. */
  lemma NotContainsForeignChar(s: string, sub: string, c: char)
    requires c in sub && c !in s
    ensures !Contains(s, sub)
  {
    ContainsIffOccurs(s, sub);
  }

  /** The test is case-sensitive: lower-case "valid" and "warning" fall through to error. */
  lemma LowerCaseKindsAreErrors()
    ensures CategoryOf("valid") == Error
    ensures CategoryOf("warning") == Error
  {
    NotContainsForeignChar("valid", "Valid", 'V');
    NotContainsForeignChar("valid", "Empty", 'E');
    NotContainsForeignChar("valid", "Warning", 'W');
    NotContainsForeignChar("warning", "Valid", 'V');
    NotContainsForeignChar("warning", "Empty", 'E');
    NotContainsForeignChar("warning", "Warning", 'W');
  }

  /** The kind "Warning" by itself is a warning. */
  lemma WarningKindIsWarning()
    ensures CategoryOf("Warning") == Warning
  {
    NotContainsForeignChar("Warning", "Valid", 'V');
    NotContainsForeignChar("Warning", "Empty", 'E');
    assert StartsWith("Warning", "Warning");
  }

  /** `int(age.split('h')[0])`, with `None` for the ValueError that get_status_color
      swallows. */
  function AgeHours(age: string): Option<int> {
    ParseInt(BeforeFirst(age, 'h'))
  }

  /** get_status_color. */
  function StatusColor(kind: string, age: string): (c: Color)
    ensures c != Grey
    ensures c == Red <==> CategoryOf(kind) == Error
    ensures c == Green <==>
              CategoryOf(kind) == Valid && !(AgeHours(age).Some? && AgeHours(age).value > STALE_HOURS)
    ensures c == Yellow <==>
              CategoryOf(kind) == Warning
              || (CategoryOf(kind) == Valid && AgeHours(age).Some? && AgeHours(age).value > STALE_HOURS)
  {
    var (_, status) := IsValid(kind);
    if status == Valid then
      match AgeHours(age)
      case Some(hours) => if hours > STALE_HOURS then Yellow else Green
      case None => Green
    else if status == Warning then Yellow
    else Red
  }

  lemma {:induction false} BeforeFirstOfSplit(a: string, c: char, b: string)
    requires c !in a
    ensures BeforeFirst(a + [c] + b, c) == a
    decreases |a|
  {
    if |a| > 0 {
      assert (a + [c] + b)[1..] == a[1..] + [c] + b;
      BeforeFirstOfSplit(a[1..], c, b);
      assert a == [a[0]] + a[1..];
    }
  }

  /** The staleness threshold: a valid cell whose age reads `<n>h…` is yellow exactly
      when n exceeds 336. */
  lemma StaleThreshold(kind: string, n: nat, rest: string)
    requires CategoryOf(kind) == Valid
    ensures StatusColor(kind, NatToString(n) + "h" + rest) == if n > STALE_HOURS then Yellow else Green
  {
    var s := NatToString(n);
    assert 'h' !in s;
    BeforeFirstOfSplit(s, 'h', rest);
    ParseNatToString(n);
  }

  lemma ValidIsValid()
    ensures CategoryOf("Valid") == Valid
  {
    ValidWherever("", "");
    assert "" + "Valid" + "" == "Valid";
  }

  /** The two sides of the threshold. */
  lemma StaleBoundary()
    ensures StatusColor("Valid", "336h0m0s") == Green
    ensures StatusColor("Valid", "337h0m0s") == Yellow
  {
    ValidIsValid();
    assert NatToString(336) == "336";
    assert NatToString(337) == "337";
    StaleThreshold("Valid", 336, "0m0s");
    assert NatToString(336) + "h" + "0m0s" == "336h0m0s";
    StaleThreshold("Valid", 337, "0m0s");
    assert NatToString(337) + "h" + "0m0s" == "337h0m0s";
  }

  /** A valid kind whose age has no integer before the first 'h' fails open to green. */
  lemma UnparseableAgeIsGreen(kind: string, age: string)
    requires CategoryOf(kind) == Valid && AgeHours(age).None?
    ensures StatusColor(kind, age) == Green
  {
  }

  /** The default age "N/A" and an age under an hour, "45m0s", carry no hour count, so a
      valid entry with either age is green. */
  lemma AgesWithoutHourCount()
    ensures AgeHours("N/A").None? && AgeHours("45m0s").None?
    ensures StatusColor("Valid", "N/A") == Green
    ensures StatusColor("Valid", "45m0s") == Green
  {
    ValidIsValid();
    assert BeforeFirst("N/A", 'h') == "N/A";
    assert !IsDigit("N/A"[0]);
    assert BeforeFirst("45m0s", 'h') == "45m0s";
    assert !IsDigit("45m0s"[2]);
  }

  /** Warning and error colours do not depend on the age at all. */
  lemma AgeOnlyMattersWhenValid(kind: string, age1: string, age2: string)
    requires CategoryOf(kind) != Valid
    ensures StatusColor(kind, age1) == StatusColor(kind, age2)
    ensures StatusColor(kind, age1) == if CategoryOf(kind) == Warning then Yellow else Red
  {
  }
}

=== FILE: ct_status.dfy ===
/** The CT-log lag report (src/ct_status.py): find the newest `ct-logs.json` manifest by
    probing back day by day, poll every active log for its signed tree head, and list each
    log's lag behind its own head, ordered by short URL.

    The network becomes three parameters: `headOk(url)` says whether a HEAD request
    answered 200, `download(url)` is the parsed manifest or the failure message, and
    `poll(url)` is the parsed body of a successful `get-sth` request. */
module CtStatus {
  import opened Results
  import opened Strings
  import opened Seqs

  /** The bucket the manifests are published in. */
  const BASE_URL: string := "https://storage.googleapis.com/crlite-filters-prod"

  /** How many days back the manifest is looked for. */
  const MAX_ATTEMPTS: nat := 7

  /** Manifest versions tried for each day, newest first. */
  const VERSIONS: seq<nat> := [1, 0]

  const STH_PATH: string := "/ct/v1/get-sth"

  const NOT_FOUND: string := "Could not find a valid CT logs JSON file in the last 7 days"

  const STH_FAILED: string := "Failed to get STH"

  function ManifestUrl(date: string, version: nat): string {
    BASE_URL + "/" + date + "-" + NatToString(version) + "/ct-logs.json"
  }

  /** The `j`-th URL probed: version 1 then version 0 of today, then of each earlier
      day. */
  function Candidate(dateOf: nat -> string, j: nat): string {
    ManifestUrl(dateOf(j / 2), VERSIONS[j % 2])
  }

  lemma CandidateAt(dateOf: nat -> string, d: nat, v: nat)
    requires v < |VERSIONS|
    ensures Candidate(dateOf, 2 * d + v) == ManifestUrl(dateOf(d), VERSIONS[v])
  {
    assert (2 * d + v) / 2 == d && (2 * d + v) % 2 == v;
  }

  /** Every URL get_latest_ct_logs_url may probe, in order. */
  function Candidates(dateOf: nat -> string): seq<string> {
    seq(2 * MAX_ATTEMPTS, j requires 0 <= j => Candidate(dateOf, j))
  }

  /** The index of the first candidate that answers, if any. */
  function FirstHit(cands: seq<string>, ok: string -> bool): (r: Option<nat>)
    ensures r.Some? ==> r.value < |cands| && ok(cands[r.value])
    ensures r.Some? ==> forall j :: 0 <= j < r.value ==> !ok(cands[j])
    ensures r.None? ==> forall j :: 0 <= j < |cands| ==> !ok(cands[j])
    decreases |cands|
  {
    if |cands| == 0 then None
    else if ok(cands[0]) then Some(0)
    else
      match FirstHit(cands[1..], ok)
      case Some(i) => Some(i + 1)
      case None => None
  }

  /** The manifest get_latest_ct_logs_url settles on: the first candidate that answers,
      or the "not found" failure. */
  function ManifestChoice(dateOf: nat -> string, headOk: string -> bool): Result<string, string> {
    var cands := Candidates(dateOf);
    match FirstHit(cands, headOk)
    case Some(i) => Ok(cands[i])
    case None => Err(NOT_FOUND)
  }

  /** The inner loop of get_latest_ct_logs_url: version 1, then version 0 of day `day`,
      returning the first that answers. `tried` counts the requests made. */
  method ProbeDay(dateOf: nat -> string, headOk: string -> bool, day: nat) returns (found: Option<string>, tried: nat)
    ensures 1 <= tried <= |VERSIONS|
    ensures found.None? ==> tried == |VERSIONS|
    ensures found.Some? ==> found.value == Candidate(dateOf, 2 * day + tried - 1) && headOk(found.value)
    ensures forall j :: 2 * day <= j < 2 * day + tried && (found.None? || j < 2 * day + tried - 1) ==>
              !headOk(Candidate(dateOf, j))
  {
    var date := dateOf(day);
    tried := 0;
    var v := 0;
    while v < |VERSIONS|
      invariant 0 <= v <= |VERSIONS| && tried == v
      invariant forall j :: 2 * day <= j < 2 * day + v ==> !headOk(Candidate(dateOf, j))
    {
      var url := ManifestUrl(date, VERSIONS[v]);
      CandidateAt(dateOf, day, v);
      tried := tried + 1;
      if headOk(url) {
        return Some(url), tried;
      }
      v := v + 1;
    }
    found := None;
  }

  /** get_latest_ct_logs_url: at most fourteen HEAD probes, stopping at the first that
      answers. `probes` is the number of requests made. */
  method LatestCtLogsUrl(dateOf: nat -> string, headOk: string -> bool)
    returns (r: Result<string, string>, probes: nat)
    ensures r == ManifestChoice(dateOf, headOk)
    ensures 1 <= probes <= 2 * MAX_ATTEMPTS
    ensures r.Ok? ==> r.value == Candidates(dateOf)[probes - 1] && headOk(r.value)
    ensures forall j :: 0 <= j < probes - 1 ==> !headOk(Candidates(dateOf)[j])
    ensures r.Err? ==> probes == 2 * MAX_ATTEMPTS && r.error == NOT_FOUND
  {
    ghost var cands := Candidates(dateOf);
    probes := 0;
    var day := 0;
    while day < MAX_ATTEMPTS
      invariant 0 <= day <= MAX_ATTEMPTS
      invariant probes == 2 * day
      invariant forall j :: 0 <= j < probes ==> !headOk(cands[j])
    {
      var found, tried := ProbeDay(dateOf, headOk, day);
      probes := probes + tried;
      if found.Some? {
        r := Ok(found.value);
        FirstHitIs(cands, headOk, probes - 1);
        return;
      }
      day := day + 1;
    }
    r := Err(NOT_FOUND);
  }

  /** The first hit is the index before which nothing answers. */
  lemma FirstHitIs(cands: seq<string>, ok: string -> bool, i: nat)
    requires i < |cands| && ok(cands[i])
    requires forall j :: 0 <= j < i ==> !ok(cands[j])
    ensures FirstHit(cands, ok) == Some(i)
  {
    var h := FirstHit(cands, ok);
    assert h.Some?;
    if h.value < i {
    } else if h.value > i {
    }
  }

  /** A manifest that exists under both versions is read as version 1; yesterday's is
      tried only after both of today's. */
  lemma NewestVersionFirst(dateOf: nat -> string)
    ensures Candidates(dateOf)[0] == ManifestUrl(dateOf(0), 1)
    ensures Candidates(dateOf)[1] == ManifestUrl(dateOf(0), 0)
    ensures Candidates(dateOf)[2] == ManifestUrl(dateOf(1), 1)
    ensures Candidates(dateOf)[13] == ManifestUrl(dateOf(6), 0)
  {
  }

  /** The scheme test of get_sth: anything not starting with "http" gets "https://". */
  function WithScheme(url: string): (r: string)
    ensures StartsWith(r, "http")
    ensures StartsWith(url, "http") <==> r == url
    ensures !StartsWith(url, "http") ==> r == "https://" + url
  {
    if StartsWith(url, "http") then url else "https://" + url
  }

  /** The URL get_sth requests for a log's short URL. */
  function SthUrl(url: string): (r: string)
    ensures StartsWith(r, "http")
    ensures EndsWith(r, STH_PATH)
    ensures r == url <==> StartsWith(url, "http") && EndsWith(url, STH_PATH)
    ensures StartsWith(url, "http") ==> StartsWith(r, RStrip(url, '/'))
    ensures StartsWith(r, RStrip(WithScheme(url), '/'))
    ensures !EndsWith(WithScheme(url), STH_PATH) ==> |r| == |RStrip(WithScheme(url), '/')| + |STH_PATH|
    ensures EndsWith(WithScheme(url), STH_PATH) ==> r == WithScheme(url)
    ensures !EndsWith(WithScheme(url), STH_PATH) ==> |r| > |STH_PATH| && r[|r| - |STH_PATH| - 1] != '/'
  {
    var u := WithScheme(url);
    if EndsWith(u, STH_PATH) then u
    else
      var base := RStrip(u, '/');
      assert u[0] == 'h';
      assert |base| > 0;
      var r := base + STH_PATH;
      assert r[..|base|] == base;
      r
  }

  /** Normalising twice changes nothing more. */
  lemma SthUrlIdempotent(url: string)
    ensures SthUrl(SthUrl(url)) == SthUrl(url)
  {
  }

  /** A bare host with a trailing slash gets the scheme and a single slash before the path. */
  lemma SthUrlOfBareHost()
    ensures SthUrl("x.org/") == "https://x.org/ct/v1/get-sth"
  {
    assert "x.org/"[0] == 'x';
    var u := WithScheme("x.org/");
    assert u == "https://" + "x.org/";
    assert u[..|u| - 1] == "https://x.org";
    assert RStrip(u, '/') == RStrip("https://x.org", '/') == "https://x.org";
    assert !EndsWith(u, STH_PATH) by {
      assert u[|u| - 1] == '/' && STH_PATH[|STH_PATH| - 1] == 'h';
    }
  }

  /** One entry of `ct-logs.json`. A falsy `LogID` (a JSON null, written `None`, or the
      empty string) marks an inactive log. */
  datatype LogEntry = LogEntry(shortUrl: string, logId: Option<string>, minEntry: int, maxEntry: int,
                               maxTimestamp: int)

  predicate Active(e: LogEntry) {
    e.logId.Some? && e.logId.value != ""
  }

  /** A parsed `get-sth` response; `None` is a missing key. */
  datatype Sth = Sth(treeSize: Option<int>, timestamp: Option<int>)

  /** The poll failed, or its answer lacks the tree size or the timestamp. */
  predicate SthFailed(sth: Option<Sth>) {
    sth.None? || sth.value.treeSize.None? || sth.value.timestamp.None?
  }

  /** `max_entry / tree_size * 100`, kept as the exact quotient `num / den`. */
  datatype Percent = Percent(num: int, den: int)

  /** The record process_log returns; `None` stands for 'N/A' and for a null error. The
      time difference is in milliseconds, shown by the program in hours. */
  datatype LogReport = LogReport(shortUrl: string, logId: string, minEntry: int, maxEntry: int,
                                 treeSize: Option<int>, ratio: Option<Percent>, timeDiffMs: Option<int>,
                                 error: Option<string>)

  /** process_log, with get_sth's request made through `poll`. */
  function ProcessLog(e: LogEntry, poll: string -> Option<Sth>): (r: Option<LogReport>)
    ensures r.None? <==> !Active(e)
    ensures r.Some? ==>
              && r.value.shortUrl == e.shortUrl && Some(r.value.logId) == e.logId
              && r.value.minEntry == e.minEntry && r.value.maxEntry == e.maxEntry
    ensures r.Some? ==>
              var sth := poll(SthUrl(e.shortUrl));
              && (r.value.error.Some? <==> SthFailed(sth))
              && (r.value.error.Some? ==> r.value.error.value == STH_FAILED)
              && (r.value.treeSize.None? <==> SthFailed(sth))
              && (r.value.treeSize.Some? ==> r.value.treeSize == sth.value.treeSize)
              && (r.value.ratio.Some? <==> !SthFailed(sth) && sth.value.treeSize.value > 0)
              && (r.value.ratio.Some? ==>
                    r.value.ratio.value.den == r.value.treeSize.value && r.value.ratio.value.num == 100 * e.maxEntry)
              && (r.value.timeDiffMs.Some? <==>
                    !SthFailed(sth) && e.maxTimestamp > 0 && sth.value.timestamp.value > 0)
              && (r.value.timeDiffMs.Some? ==>
                    e.maxTimestamp + r.value.timeDiffMs.value == sth.value.timestamp.value)
  {
    if !Active(e) then None
    else
      var sth := poll(SthUrl(e.shortUrl));
      if SthFailed(sth) then
        Some(LogReport(e.shortUrl, e.logId.value, e.minEntry, e.maxEntry, None, None, None, Some(STH_FAILED)))
      else
        var treeSize := sth.value.treeSize.value;
        var timestamp := sth.value.timestamp.value;
        var timeDiff := if e.maxTimestamp > 0 && timestamp > 0 then Some(timestamp - e.maxTimestamp) else None;
        var ratio := if treeSize > 0 then Some(Percent(100 * e.maxEntry, treeSize)) else None;
        Some(LogReport(e.shortUrl, e.logId.value, e.minEntry, e.maxEntry, Some(treeSize), ratio, timeDiff, None))
  }

  /** One element of the JSON list main prints. */
  datatype LagRecord = LagRecord(url: string, entryLag: Option<int>, timeDiffMs: Option<int>, treeSize: Option<int>,
                                 error: Option<string>)

  /** The record main builds from a process_log result. */
  function LagOf(rep: LogReport): (r: LagRecord)
    ensures r.url == rep.shortUrl && r.treeSize == rep.treeSize && r.error == rep.error
    ensures r.timeDiffMs == rep.timeDiffMs
    ensures r.entryLag.Some? <==> rep.treeSize.Some?
    ensures r.entryLag.Some? ==> rep.maxEntry + r.entryLag.value == rep.treeSize.value
  {
    var lag := if rep.treeSize.Some? then Some(rep.treeSize.value - rep.maxEntry) else None;
    LagRecord(rep.shortUrl, lag, rep.timeDiffMs, rep.treeSize, rep.error)
  }

  function ShortUrlKey(e: LogEntry): string {
    e.shortUrl
  }

  /** What main appends for a manifest entry: nothing when process_log returns None. */
  function Report(e: LogEntry, poll: string -> Option<Sth>): (r: Option<LagRecord>)
    ensures r.Some? <==> Active(e)
  {
    match ProcessLog(e, poll)
    case Some(rep) => Some(LagOf(rep))
    case None => None
  }

  /** The list main prints for a manifest. */
  function Lags(logs: seq<LogEntry>, poll: string -> Option<Sth>): seq<LagRecord> {
    FilterMap(SortBy(logs, ShortUrlKey), (e: LogEntry) => Report(e, poll))
  }

  function LagUrl(rec: LagRecord): string {
    rec.url
  }

  /** The printed list has one record per active log. */
  lemma LagsLength(logs: seq<LogEntry>, poll: string -> Option<Sth>)
    ensures |Lags(logs, poll)| == |Filter(logs, Active)|
  {
    var sorted := SortBy(logs, ShortUrlKey);
    FilterMapLength(sorted, (e: LogEntry) => Report(e, poll), Active);
    FilterPermutation(sorted, logs, Active);
    assert |Filter(sorted, Active)| == |multiset(Filter(sorted, Active))|;
    assert |Filter(logs, Active)| == |multiset(Filter(logs, Active))|;
  }

  /** A record is printed iff it is the record of some log of the manifest. */
  lemma LagsMembership(logs: seq<LogEntry>, poll: string -> Option<Sth>, rec: LagRecord)
    ensures rec in Lags(logs, poll) <==> exists e :: e in logs && Report(e, poll) == Some(rec)
  {
    var sorted := SortBy(logs, ShortUrlKey);
    FilterMapMembership(sorted, (e: LogEntry) => Report(e, poll), rec);
    assert forall e :: e in sorted <==> e in logs by {
      assert forall e :: e in sorted <==> e in multiset(sorted);
    }
  }

  /** The printed list is ordered by URL. */
  lemma LagsSorted(logs: seq<LogEntry>, poll: string -> Option<Sth>)
    ensures SortedBy(Lags(logs, poll), LagUrl)
  {
    FilterMapSorted(SortBy(logs, ShortUrlKey), (e: LogEntry) => Report(e, poll), ShortUrlKey, LagUrl);
  }

  /** Every printed record has an entry lag exactly when it has no error. */
  lemma LagsErrorIffNoLag(logs: seq<LogEntry>, poll: string -> Option<Sth>, rec: LagRecord)
    requires rec in Lags(logs, poll)
    ensures rec.entryLag.None? <==> rec.error.Some?
    ensures rec.error.Some? ==> rec.error.value == STH_FAILED
  {
    LagsMembership(logs, poll, rec);
  }

  /** main: find the manifest, download it, sort it by short URL and report every active
      log. A failure of either network step ends the run with its message. */
  method CtMain(dateOf: nat -> string, headOk: string -> bool,
                download: string -> Result<seq<LogEntry>, string>, poll: string -> Option<Sth>)
    returns (r: Result<seq<LagRecord>, string>)
    ensures ManifestChoice(dateOf, headOk).Err? ==> r == Err(NOT_FOUND)
    ensures ManifestChoice(dateOf, headOk).Ok? && download(ManifestChoice(dateOf, headOk).value).Err? ==>
              r == Err(download(ManifestChoice(dateOf, headOk).value).error)
    ensures ManifestChoice(dateOf, headOk).Ok? && download(ManifestChoice(dateOf, headOk).value).Ok? ==>
              r == Ok(Lags(download(ManifestChoice(dateOf, headOk).value).value, poll))
  {
    var url, _ := LatestCtLogsUrl(dateOf, headOk);
    if url.Err? {
      return Err(url.error);
    }
    var logs := download(url.value);
    if logs.Err? {
      return Err(logs.error);
    }
    var results := ReportLogs(SortBy(logs.value, ShortUrlKey), poll);
    r := Ok(results);
  }

  /** The loop of main over the sorted manifest. */
  method ReportLogs(sorted: seq<LogEntry>, poll: string -> Option<Sth>) returns (results: seq<LagRecord>)
    ensures results == FilterMap(sorted, (e: LogEntry) => Report(e, poll))
  {
    results := [];
    var i := 0;
    while i < |sorted|
      invariant 0 <= i <= |sorted|
      invariant results == FilterMap(sorted[..i], (e: LogEntry) => Report(e, poll))
    {
      FilterMapSnoc(sorted[..i], sorted[i], (e: LogEntry) => Report(e, poll));
      assert sorted[..i + 1] == sorted[..i] + [sorted[i]];
      var rep := ProcessLog(sorted[i], poll);
      if rep.Some? {
        results := results + [LagOf(rep.value)];
      }
      i := i + 1;
    }
    assert sorted[..i] == sorted;
  }
}

=== FILE: heatmap.dfy ===
/** create_heatmap_html and main (src/main.py) without the markup: the order of the
    rows, the left-to-right scan of one row that compares each slot's revocation count
    with the slot just before it, and the decision main makes between "no data" and a
    page. */
module Heatmap {
  import opened Results
  import opened Strings
  import opened Seqs
  import opened Audit
  import opened Slots
  import opened Timeline
  import opened Classify

  /** A change of more than this many revocations between neighbouring slots is marked. */
  const CHANGE_THRESHOLD: int := 250

  /** The URL column shows at most this many characters of the URL. */
  const URL_DISPLAY_LENGTH: nat := 40

  /** The glyph inside a cell: nothing, an up triangle or a down triangle. */
  datatype Marker = NoMarker | Rising | Falling

  /** A grid cell: a grey cell for a slot the issuer has no status in, or a coloured cell
      with the status, the change against the previous column and its marker. */
  datatype Cell = Blank | Filled(color: Color, status: Status, change: int, marker: Marker)

  function CellColor(c: Cell): Color {
    if c.Blank? then Grey else c.color
  }

  function Abs(x: int): nat {
    if x < 0 then -x else x
  }

  /** The comparison of one cell with the count remembered from the previous column. Only
      two integer counts are compared; otherwise the change is 0. */
  function Delta(prev: Option<Count>, curr: Count): (r: (int, Marker))
    ensures prev.Some? && prev.value.IntCount? && curr.IntCount? ==> prev.value.n + r.0 == curr.n
    ensures !(prev.Some? && prev.value.IntCount? && curr.IntCount?) ==> r.0 == 0
    ensures r.1 == Rising <==> r.0 > CHANGE_THRESHOLD
    ensures r.1 == Falling <==> r.0 < -CHANGE_THRESHOLD
  {
    match (prev, curr)
    case (Some(IntCount(p)), IntCount(c)) =>
      var change := c - p;
      var marker :=
        if Abs(change) > CHANGE_THRESHOLD then
          (if change > 0 then Rising else if change < 0 then Falling else NoMarker)
        else NoMarker;
      (change, marker)
    case _ => (0, NoMarker)
  }

  /** What the scan remembers on reaching column `i`: the previous column's count when
      that column has a status, and nothing at the first column or after a grey cell. */
  function Baseline(statuses: map<string, Status>, dates: seq<string>, i: nat): Option<Count>
    requires i <= |dates|
  {
    if i == 0 || dates[i - 1] !in statuses then None else Some(statuses[dates[i - 1]].revocations)
  }

  /** Column `i` of an issuer's row, described without the scan. */
  function CellAt(statuses: map<string, Status>, dates: seq<string>, i: nat): Cell
    requires i < |dates|
  {
    if dates[i] in statuses then
      var status := statuses[dates[i]];
      var (change, marker) := Delta(Baseline(statuses, dates, i), status.revocations);
      Filled(StatusColor(status.kind, status.age), status, change, marker)
    else Blank
  }

  /** The inner loop of create_heatmap_html over the columns of one row. */
  method ScanRow(statuses: map<string, Status>, dates: seq<string>) returns (cells: seq<Cell>)
    ensures |cells| == |dates|
    ensures forall i :: 0 <= i < |dates| ==> cells[i] == CellAt(statuses, dates, i)
  {
    cells := [];
    var prev: Option<Count> := None;
    var i := 0;
    while i < |dates|
      invariant 0 <= i <= |dates|
      invariant |cells| == i
      invariant forall j :: 0 <= j < i ==> cells[j] == CellAt(statuses, dates, j)
      invariant prev == Baseline(statuses, dates, i)
    {
      var date := dates[i];
      if date in statuses {
        var status := statuses[date];
        var color := StatusColor(status.kind, status.age);
        var curr := status.revocations;
        var change := 0;
        var marker := NoMarker;
        if prev.Some? && curr.IntCount? && prev.value.IntCount? {
          change := curr.n - prev.value.n;
          if Abs(change) > CHANGE_THRESHOLD {
            if change > 0 {
              marker := Rising;
            } else if change < 0 {
              marker := Falling;
            }
          }
        }
        prev := Some(curr);
        cells := cells + [Filled(color, status, change, marker)];
      } else {
        cells := cells + [Blank];
        prev := None;
      }
      i := i + 1;
    }
  }

  /** A cell is grey exactly when the issuer has no status for that slot, and a coloured
      cell shows that status. */
  lemma CellShowsStatus(statuses: map<string, Status>, dates: seq<string>, i: nat)
    requires i < |dates|
    ensures CellColor(CellAt(statuses, dates, i)) == Grey <==> dates[i] !in statuses
    ensures dates[i] in statuses ==> CellAt(statuses, dates, i).status == statuses[dates[i]]
  {
    if dates[i] in statuses {
      var status := statuses[dates[i]];
      assert CellAt(statuses, dates, i).color == StatusColor(status.kind, status.age);
    }
  }

  /** A grey cell breaks the comparison: the next cell is compared with nothing, however
      far its count is from the last count before the gap. The first column is never
      compared either. */
  lemma GapResetsComparison(statuses: map<string, Status>, dates: seq<string>, i: nat)
    requires i < |dates| && dates[i] in statuses
    requires i == 0 || dates[i - 1] !in statuses
    ensures CellAt(statuses, dates, i).change == 0
    ensures CellAt(statuses, dates, i).marker == NoMarker
  {
  }

  /** A count that is not a JSON integer is never compared, on either side. */
  lemma NonIntegerCountsAreNotCompared(statuses: map<string, Status>, dates: seq<string>, i: nat)
    requires 0 < i < |dates| && dates[i] in statuses && dates[i - 1] in statuses
    requires statuses[dates[i]].revocations.NonIntCount? || statuses[dates[i - 1]].revocations.NonIntCount?
    ensures CellAt(statuses, dates, i).change == 0
    ensures CellAt(statuses, dates, i).marker == NoMarker
  {
  }

  /** Two neighbouring integer counts: the change is their difference and the marker
      shows its direction when the difference exceeds the threshold. */
  lemma NeighboursCompared(statuses: map<string, Status>, dates: seq<string>, i: nat)
    requires 0 < i < |dates| && dates[i] in statuses && dates[i - 1] in statuses
    requires statuses[dates[i]].revocations.IntCount? && statuses[dates[i - 1]].revocations.IntCount?
    ensures CellAt(statuses, dates, i).change
         == statuses[dates[i]].revocations.n - statuses[dates[i - 1]].revocations.n
    ensures CellAt(statuses, dates, i).marker ==
              if CellAt(statuses, dates, i).change > CHANGE_THRESHOLD then Rising
              else if CellAt(statuses, dates, i).change < -CHANGE_THRESHOLD then Falling
              else NoMarker
  {
  }

  /** The threshold is strict: a change of exactly 250 is not marked, 251 is. */
  lemma ThresholdIsStrict()
    ensures Delta(Some(IntCount(100)), IntCount(350)) == (250, NoMarker)
    ensures Delta(Some(IntCount(100)), IntCount(351)) == (251, Rising)
    ensures Delta(Some(IntCount(351)), IntCount(100)) == (-251, Falling)
    ensures Delta(Some(IntCount(350)), IntCount(100)) == (-250, NoMarker)
  {
  }

  /** Every column from `a` to `b` has a status with an integer count. */
  ghost predicate IntegerRun(statuses: map<string, Status>, dates: seq<string>, a: nat, b: nat) {
    && a <= b < |dates|
    && forall j :: a <= j <= b ==> dates[j] in statuses && statuses[dates[j]].revocations.IntCount?
  }

  function CellChange(c: Cell): int {
    if c.Blank? then 0 else c.change
  }

  /** The sum of the changes shown in columns `a + 1 .. b`. */
  ghost function ChangeSum(statuses: map<string, Status>, dates: seq<string>, a: nat, b: nat): int
    requires a <= b < |dates|
    decreases b - a
  {
    if b == a then 0 else ChangeSum(statuses, dates, a, b - 1) + CellChange(CellAt(statuses, dates, b))
  }

  /** Along an unbroken run of integer counts the changes shown add up to the difference
      between the run's last and first counts: no revocation is lost or counted twice. */
  lemma {:induction false} ChangesTelescope(statuses: map<string, Status>, dates: seq<string>, a: nat, b: nat)
    requires IntegerRun(statuses, dates, a, b)
    ensures ChangeSum(statuses, dates, a, b)
         == statuses[dates[b]].revocations.n - statuses[dates[a]].revocations.n
    decreases b - a
  {
    if b > a {
      assert IntegerRun(statuses, dates, a, b - 1);
      ChangesTelescope(statuses, dates, a, b - 1);
      assert dates[b - 1] in statuses && statuses[dates[b - 1]].revocations.IntCount?;
      assert dates[b] in statuses && statuses[dates[b]].revocations.IntCount?;
      NeighboursCompared(statuses, dates, b);
    }
  }

  /** The URL column: the first 40 characters, with "..." when the URL was longer. */
  function DisplayUrl(url: string): (r: string)
    ensures |url| <= URL_DISPLAY_LENGTH ==> r == url
    ensures |url| > URL_DISPLAY_LENGTH ==>
              |r| == URL_DISPLAY_LENGTH + 3 && r[..URL_DISPLAY_LENGTH] == url[..URL_DISPLAY_LENGTH]
              && EndsWith(r, "...")
  {
    if |url| > URL_DISPLAY_LENGTH then url[..URL_DISPLAY_LENGTH] + "..." else url
  }

  /** The dict's items in insertion order. */
  function Rows(t: Table): seq<(string, Issuer)>
    requires WellFormed(t)
  {
    seq(|t.order|, i requires 0 <= i < |t.order| => (t.order[i], t.rows[t.order[i]]))
  }

  /** The sort key of a row: the issuer's URL in lower case. */
  function UrlKey(row: (string, Issuer)): string {
    Lower(row.1.url)
  }

  lemma RowsMembership(t: Table)
    requires WellFormed(t)
    ensures forall row :: row in Rows(t) <==> row.0 in t.rows && row.1 == t.rows[row.0]
  {
    var rows := Rows(t);
    forall row: (string, Issuer) | row.0 in t.rows && row.1 == t.rows[row.0]
      ensures row in rows
    {
      var i :| 0 <= i < |t.order| && t.order[i] == row.0;
      assert rows[i] == row;
    }
  }

  /** The row order of the heatmap: `sorted(keys, key=url.lower())`. Every issuer
      appears exactly once, with its own record, and the rows ascend by lower-cased URL. */
  function SortedIssuers(t: Table): (r: seq<(string, Issuer)>)
    requires WellFormed(t)
    ensures |r| == |t.order|
    ensures SortedBy(r, UrlKey)
    ensures forall row :: row in r <==> row.0 in t.rows && row.1 == t.rows[row.0]
    ensures forall i, j :: 0 <= i < j < |r| ==> r[i].0 != r[j].0
  {
    var r := SortBy(Rows(t), UrlKey);
    PermutedRows(t, r);
    r
  }

  /** Any rearrangement of the dict's items holds each item once, and no key twice. */
  lemma PermutedRows(t: Table, r: seq<(string, Issuer)>)
    requires WellFormed(t) && multiset(r) == multiset(Rows(t))
    ensures forall row :: row in r <==> row.0 in t.rows && row.1 == t.rows[row.0]
    ensures forall i, j :: 0 <= i < j < |r| ==> r[i].0 != r[j].0
  {
    var rows := Rows(t);
    RowsMembership(t);
    assert forall row :: row in r <==> row in multiset(rows);
    assert Distinct(rows);
    DistinctPermutation(rows, r);
  }

  /** Issuers whose URLs differ only in case, or agree, keep their insertion order: the
      sort is stable. */
  lemma RowOrderStable(t: Table, u: string)
    requires WellFormed(t)
    ensures WithKey(SortedIssuers(t), UrlKey, u) == WithKey(Rows(t), UrlKey, u)
  {
    SortByStable(Rows(t), UrlKey, u);
  }

  /** One row of the heatmap. */
  datatype GridRow = GridRow(key: string, url: string, displayUrl: string, subject: string, cells: seq<Cell>)

  /** `g` is the rendering of the dict item `row` over the slots `fileDates`. */
  ghost predicate Renders(row: (string, Issuer), fileDates: seq<string>, g: GridRow) {
    && g.key == row.0
    && g.url == row.1.url
    && g.displayUrl == DisplayUrl(row.1.url)
    && g.subject == row.1.subject
    && |g.cells| == |fileDates|
    && forall j :: 0 <= j < |fileDates| ==> g.cells[j] == CellAt(row.1.statuses, fileDates, j)
  }

  /** The body of the row loop of create_heatmap_html for one dict item. */
  method RenderRow(row: (string, Issuer), fileDates: seq<string>) returns (g: GridRow)
    ensures Renders(row, fileDates, g)
  {
    var cells := ScanRow(row.1.statuses, fileDates);
    g := GridRow(row.0, row.1.url, DisplayUrl(row.1.url), row.1.subject, cells);
  }

  /** The rows of the heatmap: the issuers in row order, each rendered over every slot. */
  method BuildGrid(t: Table, fileDates: seq<string>) returns (grid: seq<GridRow>)
    requires WellFormed(t)
    ensures |grid| == |t.order|
    ensures forall i :: 0 <= i < |grid| ==> Renders(SortedIssuers(t)[i], fileDates, grid[i])
  {
    var issuers := SortedIssuers(t);
    grid := [];
    var i := 0;
    while i < |issuers|
      invariant 0 <= i <= |issuers|
      invariant |grid| == i
      invariant forall k :: 0 <= k < i ==> Renders(issuers[k], fileDates, grid[k])
    {
      var g := RenderRow(issuers[i], fileDates);
      grid := grid + [g];
      i := i + 1;
    }
  }

  /** The grid lists every issuer of the table once, with its own record, ascending by
      lower-cased URL. */
  lemma GridCoversTable(t: Table, fileDates: seq<string>, grid: seq<GridRow>)
    requires WellFormed(t)
    requires |grid| == |t.order|
    requires forall i :: 0 <= i < |grid| ==> Renders(SortedIssuers(t)[i], fileDates, grid[i])
    ensures forall k :: k in t.rows <==> exists i :: 0 <= i < |grid| && grid[i].key == k
    ensures forall i :: 0 <= i < |grid| ==> grid[i].key in t.rows && grid[i].url == t.rows[grid[i].key].url
    ensures forall i, j :: 0 <= i < j < |grid| ==> grid[i].key != grid[j].key
    ensures forall i, j :: 0 <= i < j < |grid| ==> LexLe(Lower(grid[i].url), Lower(grid[j].url))
  {
    var r := SortedIssuers(t);
    forall i | 0 <= i < |grid|
      ensures grid[i].key in t.rows && grid[i].url == t.rows[grid[i].key].url
    {
      assert r[i] in r;
    }
    forall k | k in t.rows
      ensures exists i :: 0 <= i < |grid| && grid[i].key == k
    {
      assert (k, t.rows[k]) in r;
      var i :| 0 <= i < |r| && r[i] == (k, t.rows[k]);
      assert grid[i].key == k;
    }
    forall i, j | 0 <= i < j < |grid|
      ensures LexLe(Lower(grid[i].url), Lower(grid[j].url))
    {
      assert UrlKey(r[i]) == Lower(grid[i].url);
      assert UrlKey(r[j]) == Lower(grid[j].url);
    }
  }

  /** No readable cached file of the slots `names` holds an entry that is not
      "Not Fresh". */
  ghost predicate NothingFresh(names: seq<string>, cache: map<string, Document>) {
    forall name, e ::
      (name in names && CachePath(name) in cache && cache[CachePath(name)].Snapshot?
       && e in cache[CachePath(name)].entries) ==> !IsFresh(e)
  }

  /** The table built from a window is empty exactly when nothing in it is fresh. */
  lemma EmptyTableIff(fileDates: seq<string>, cache: map<string, Document>)
    ensures Fold(Stream(fileDates, cache)).rows == map[] <==> NothingFresh(fileDates, cache)
  {
    var items := Stream(fileDates, cache);
    var t := Fold(items);
    if t.rows == map[] {
      forall name, e | name in fileDates && CachePath(name) in cache && cache[CachePath(name)].Snapshot?
                       && e in cache[CachePath(name)].entries
        ensures !IsFresh(e)
      {
        var x := Item(name, e);
        StreamMembership(fileDates, cache, x);
        var i :| 0 <= i < |items| && items[i] == x;
        if IsFresh(e) {
          FoldKeys(items, KeyOf(e));
          assert CountsFor(items[i], KeyOf(e));
        }
      }
    } else {
      var k :| k in t.rows;
      FoldKeys(items, k);
      var i :| 0 <= i < |items| && CountsFor(items[i], k);
      assert items[i] in items;
      StreamMembership(fileDates, cache, items[i]);
    }
  }

  /** What main produces: the "no data" exit, or the page's slot columns and rows. */
  datatype Outcome = NoData | Page(fileDates: seq<string>, grid: seq<GridRow>)

  /** `grid` is the heatmap of the well-formed table `t`: its issuers in row order, each
      rendered over the slots `fileDates`. */
  ghost predicate RendersTable(t: Table, fileDates: seq<string>, grid: seq<GridRow>) {
    && WellFormed(t)
    && |grid| == |t.order|
    && forall i :: 0 <= i < |grid| ==> Renders(SortedIssuers(t)[i], fileDates, grid[i])
  }

  /** The page's rows for a non-empty table: the heatmap of the table, so at least one
      row, each with a cell per slot. */
  method RenderRows(table: Table, fileDates: seq<string>) returns (grid: seq<GridRow>)
    requires WellFormed(table) && table.rows != map[]
    ensures RendersTable(table, fileDates, grid)
    ensures |grid| > 0
    ensures forall i :: 0 <= i < |grid| ==> |grid[i].cells| == |fileDates|
  {
    var k :| k in table.rows;
    assert k in table.order;
    grid := BuildGrid(table, fileDates);
    assert forall i :: 0 <= i < |grid| ==> Renders(SortedIssuers(table)[i], fileDates, grid[i]);
  }

  /** main: refresh the cache, load the window, and render the grid when there is
      anything to show. The returned cache is the directory after the refresh. */
  method Dashboard(dateOf: nat -> string, cache: map<string, Document>, remote: map<string, Document>)
    returns (out: Outcome, cacheAfter: map<string, Document>)
    ensures cacheAfter == Refresh(FileDates(dateOf), cache, remote)
    ensures out.NoData? <==> NothingFresh(SortedSlotNames(FileDates(dateOf)), cacheAfter)
    ensures out.Page? ==>
              && out.fileDates == SortedSlotNames(FileDates(dateOf))
              && |out.fileDates| == DAYS_TO_FETCH * FILES_PER_DAY
              && |out.grid| > 0
              && forall i :: 0 <= i < |out.grid| ==> |out.grid[i].cells| == |out.fileDates|
    ensures out.Page? ==> RendersTable(Fold(Stream(out.fileDates, cacheAfter)), out.fileDates, out.grid)
  {
    var dates := FileDates(dateOf);
    cacheAfter := Refresh(dates, cache, remote);
    var table, fileDates := LoadCachedData(dates, cacheAfter);
    EmptyTableIff(fileDates, cacheAfter);
    if table.rows == map[] {
      out := NoData;
    } else {
      var grid := RenderRows(table, fileDates);
      out := Page(fileDates, grid);
    }
  }
}

=== FILE: results.dfy ===
/** Failure-carrying values used at the boundary of the model: a JSON field that may be
    absent, a network call that may fail, a search that may find nothing. */
module Results {

  /** An optional value: `None` is Python's missing key or `None`. */
  datatype Option<+T> = None | Some(value: T) {

    /** The value, or `default` when absent (Python's `dict.get(key, default)`). */
    function GetOr(default: T): T {
      match this
      case Some(v) => v
      case None => default
    }
  }

  /** The outcome of an operation that raises in the source. */
  datatype Result<+T, +E> = Ok(value: T) | Err(error: E)
}

=== FILE: seqs.dfy ===
/** Python's `sorted(xs, key=...)` and `[x for x in xs if p(x)]` over sequences, with the
    guarantees the dashboard's orderings depend on: the result is a permutation, it is
    ordered by the key, the sort is stable, and filtering keeps the original order. */
module Seqs {
  import opened Results
  import opened Strings

  /** `s` is non-decreasing under `key` with Python's string ordering. */
  ghost predicate SortedBy<T>(s: seq<T>, key: T -> string) {
    forall i, j :: 0 <= i < j < |s| ==> LexLe(key(s[i]), key(s[j]))
  }

  /** Inserts `x` in front of the first element whose key is not smaller. */
  function InsertBy<T>(x: T, s: seq<T>, key: T -> string): (r: seq<T>)
    requires SortedBy(s, key)
    ensures SortedBy(r, key)
    ensures multiset(r) == multiset(s) + multiset{x}
    decreases |s|
  {
    if |s| == 0 || LexLe(key(x), key(s[0])) then
      assert SortedBy([x] + s, key) by {
        forall j | 0 < j < |[x] + s|
          ensures LexLe(key(x), key(([x] + s)[j]))
        {
          assert ([x] + s)[j] == s[j - 1];
          if j > 1 {
            LexLeTrans(key(x), key(s[0]), key(s[j - 1]));
          }
        }
      }
      [x] + s
    else
      var rest := InsertBy(x, s[1..], key);
      assert s == [s[0]] + s[1..];
      assert SortedBy([s[0]] + rest, key) by {
        LexLeTotal(key(x), key(s[0]));
        forall j | 0 <= j < |rest|
          ensures LexLe(key(s[0]), key(rest[j]))
        {
          assert rest[j] in multiset(rest);
          if rest[j] == x {
          } else {
            assert rest[j] in multiset(s[1..]);
            var k :| 0 <= k < |s[1..]| && s[1..][k] == rest[j];
            assert s[k + 1] == rest[j];
          }
        }
      }
      [s[0]] + rest
  }

  /** Stable insertion sort by `key`. */
  function SortBy<T>(s: seq<T>, key: T -> string): (r: seq<T>)
    ensures SortedBy(r, key)
    ensures multiset(r) == multiset(s)
    ensures |r| == |s|
    decreases |s|
  {
    if |s| == 0 then []
    else
      assert s == [s[0]] + s[1..];
      InsertBy(s[0], SortBy(s[1..], key), key)
  }

  /** The elements of `s` whose key is exactly `k`, in their order in `s`. */
  function WithKey<T>(s: seq<T>, key: T -> string, k: string): seq<T>
    decreases |s|
  {
    if |s| == 0 then [] else (if key(s[0]) == k then [s[0]] else []) + WithKey(s[1..], key, k)
  }

  lemma WithKeyCons<T>(a: T, rest: seq<T>, key: T -> string, k: string)
    ensures WithKey([a] + rest, key, k) == (if key(a) == k then [a] else []) + WithKey(rest, key, k)
  {
    assert ([a] + rest)[0] == a;
    assert ([a] + rest)[1..] == rest;
  }

  lemma {:induction false} InsertByWithKey<T>(x: T, s: seq<T>, key: T -> string, k: string)
    requires SortedBy(s, key)
    ensures WithKey(InsertBy(x, s, key), key, k)
         == (if key(x) == k then [x] else []) + WithKey(s, key, k)
    decreases |s|
  {
    if |s| == 0 || LexLe(key(x), key(s[0])) {
      WithKeyCons(x, s, key, k);
    } else {
      var rest := InsertBy(x, s[1..], key);
      assert InsertBy(x, s, key) == [s[0]] + rest;
      WithKeyCons(s[0], rest, key, k);
      InsertByWithKey(x, s[1..], key, k);
      WithKeyCons(s[0], s[1..], key, k);
      assert s == [s[0]] + s[1..];
      LexLeRefl(key(x));
      assert key(s[0]) != key(x);
    }
  }

  /** Stability: elements with equal keys keep their original relative order. */
  lemma {:induction false} SortByStable<T>(s: seq<T>, key: T -> string, k: string)
    ensures WithKey(SortBy(s, key), key, k) == WithKey(s, key, k)
    decreases |s|
  {
    if |s| > 0 {
      SortByStable(s[1..], key, k);
      InsertByWithKey(s[0], SortBy(s[1..], key), key, k);
    }
  }

  /** `r` is `s` with some elements left out and the rest in their original order. */
  ghost predicate SubsequenceOf<T>(r: seq<T>, s: seq<T>)
    decreases |s|
  {
    |r| == 0 || (|s| > 0 && ((r[0] == s[0] && SubsequenceOf(r[1..], s[1..])) || SubsequenceOf(r, s[1..])))
  }

  /** Python's `[x for x in s if p(x)]`. */
  function Filter<T(!new)>(s: seq<T>, p: T -> bool): (r: seq<T>)
    ensures SubsequenceOf(r, s)
    ensures forall x :: x in r <==> x in s && p(x)
    ensures forall x :: multiset(r)[x] == if p(x) then multiset(s)[x] else 0
    decreases |s|
  {
    if |s| == 0 then []
    else
      assert s == [s[0]] + s[1..];
      var rest := Filter(s[1..], p);
      if p(s[0]) then
        assert ([s[0]] + rest)[1..] == rest;
        [s[0]] + rest
      else
        rest
  }

  /** Filtering keeps relative order: it distributes over concatenation. */
  lemma {:induction false} FilterAppend<T(!new)>(a: seq<T>, b: seq<T>, p: T -> bool)
    ensures Filter(a + b, p) == Filter(a, p) + Filter(b, p)
    decreases |a|
  {
    if |a| > 0 {
      assert (a + b)[1..] == a[1..] + b;
      FilterAppend(a[1..], b, p);
    } else {
      assert a + b == b;
    }
  }

  /** Filtering a sorted sequence leaves it sorted. */
  lemma {:induction false} FilterSorted<T(!new)>(s: seq<T>, p: T -> bool, key: T -> string)
    requires SortedBy(s, key)
    ensures SortedBy(Filter(s, p), key)
    decreases |s|
  {
    if |s| > 0 {
      FilterSorted(s[1..], p, key);
      var rest := Filter(s[1..], p);
      if p(s[0]) {
        forall j | 0 <= j < |rest|
          ensures LexLe(key(s[0]), key(rest[j]))
        {
          assert rest[j] in s[1..];
          var k :| 0 <= k < |s[1..]| && s[1..][k] == rest[j];
          assert s[k + 1] == rest[j];
        }
        assert Filter(s, p) == [s[0]] + rest;
      }
    }
  }

  /** Python's `[f(x) for x in s]`. */
  function Map<T, U>(s: seq<T>, f: T -> U): seq<U> {
    seq(|s|, i requires 0 <= i < |s| => f(s[i]))
  }

  /** No element occurs twice. */
  ghost predicate Distinct<T>(s: seq<T>) {
    forall i, j :: 0 <= i < j < |s| ==> s[i] != s[j]
  }

  lemma {:induction false} DistinctCount<T>(s: seq<T>, x: T)
    requires Distinct(s)
    ensures multiset(s)[x] <= 1
    decreases |s|
  {
    if |s| > 0 {
      assert s == [s[0]] + s[1..];
      DistinctCount(s[1..], x);
      if s[0] == x {
        assert x !in s[1..];
      }
    }
  }

  /** A permutation of a sequence without repetitions has none either. */
  lemma DistinctPermutation<T>(a: seq<T>, b: seq<T>)
    requires Distinct(a) && multiset(a) == multiset(b)
    ensures Distinct(b)
  {
    forall i, j | 0 <= i < j < |b|
      ensures b[i] != b[j]
    {
      if b[i] == b[j] {
        assert b == b[..i] + [b[i]] + b[i + 1..j] + [b[j]] + b[j + 1..];
        assert multiset(b)[b[i]] >= 2;
        DistinctCount(a, b[i]);
      }
    }
  }

  /** Filtering two permutations of each other gives permutations of each other. */
  lemma FilterPermutation<T(!new)>(a: seq<T>, b: seq<T>, p: T -> bool)
    requires multiset(a) == multiset(b)
    ensures multiset(Filter(a, p)) == multiset(Filter(b, p))
  {
    forall x
      ensures multiset(Filter(a, p))[x] == multiset(Filter(b, p))[x]
    {
    }
  }

  /** Python's `for x in s: y = f(x); if y is None: continue; out.append(y)`. */
  function FilterMap<T, U>(s: seq<T>, f: T -> Option<U>): seq<U>
    decreases |s|
  {
    if |s| == 0 then []
    else
      var y := f(s[|s| - 1]);
      FilterMap(s[..|s| - 1], f) + (if y.Some? then [y.value] else [])
  }

  lemma FilterMapSnoc<T, U>(s: seq<T>, x: T, f: T -> Option<U>)
    ensures FilterMap(s + [x], f) == FilterMap(s, f) + (if f(x).Some? then [f(x).value] else [])
  {
    assert (s + [x])[..|s|] == s;
  }

  /** One output per element on which `f` answers. */
  lemma {:induction false} FilterMapLength<T(!new), U>(s: seq<T>, f: T -> Option<U>, p: T -> bool)
    requires forall x :: p(x) <==> f(x).Some?
    ensures |FilterMap(s, f)| == |Filter(s, p)|
    decreases |s|
  {
    if |s| > 0 {
      var n := |s| - 1;
      FilterMapLength(s[..n], f, p);
      assert s == s[..n] + [s[n]];
      FilterAppend(s[..n], [s[n]], p);
    }
  }

  /** Every output is `f`'s answer on some element, and every answer is output. */
  lemma {:induction false} FilterMapMembership<T, U>(s: seq<T>, f: T -> Option<U>, y: U)
    ensures y in FilterMap(s, f) <==> exists x :: x in s && f(x) == Some(y)
    decreases |s|
  {
    if |s| > 0 {
      var n := |s| - 1;
      var init := s[..n];
      FilterMapMembership(init, f, y);
      assert s == init + [s[n]];
      if exists x :: x in s && f(x) == Some(y) {
        var x :| x in s && f(x) == Some(y);
        if x != s[n] {
          assert x in init;
        }
      }
      if exists x :: x in init && f(x) == Some(y) {
        var x :| x in init && f(x) == Some(y);
        assert x in s;
      }
    }
  }

  /** When `f` carries the sort key over, a sorted input gives a sorted output. */
  lemma {:induction false} FilterMapSorted<T, U>(s: seq<T>, f: T -> Option<U>, k1: T -> string, k2: U -> string)
    requires SortedBy(s, k1)
    requires forall x :: f(x).Some? ==> k2(f(x).value) == k1(x)
    ensures SortedBy(FilterMap(s, f), k2)
    decreases |s|
  {
    if |s| > 0 {
      var n := |s| - 1;
      var prefix := FilterMap(s[..n], f);
      FilterMapSorted(s[..n], f, k1, k2);
      var y := f(s[n]);
      if y.Some? {
        forall i | 0 <= i < |prefix|
          ensures LexLe(k2(prefix[i]), k2(y.value))
        {
          assert prefix[i] in prefix;
          FilterMapMembership(s[..n], f, prefix[i]);
          var x :| x in s[..n] && f(x) == Some(prefix[i]);
          var k :| 0 <= k < n && s[..n][k] == x;
          assert s[k] == x;
        }
      }
    }
  }
}

=== FILE: slots.dfy ===
/** The sliding window of expected snapshot slots and the reconciliation of the local
    cache against it (src/main.py: get_file_dates, get_file_urls, get_cache_path,
    check_for_updates, update_files and the first two steps of main).

    The wall clock is a parameter `dateOf`: `dateOf(i)` is the `%Y%m%d` rendering of
    today minus `i` days. The cache directory is a map from file name to the file's
    content, and the remote bucket a map from URL to what a successful GET returns. */
module Slots {
  import opened Strings
  import opened Seqs
  import opened Audit

  const BASE_URL: string := "https://storage.googleapis.com/crlite-filters-prod"
  const DAYS_TO_FETCH: nat := 14
  const FILES_PER_DAY: nat := 2

  /** One expected snapshot: its `date-k` identifier and the URL it is fetched from. */
  datatype Slot = Slot(name: string, url: string)

  /** get_file_dates: today first, then one day further back each step. */
  function FileDates(dateOf: nat -> string): seq<string> {
    seq(DAYS_TO_FETCH, i requires 0 <= i => dateOf(i))
  }

  function SlotName(date: string, k: nat): string {
    date + "-" + NatToString(k)
  }

  function AuditUrl(name: string): string {
    BASE_URL + "/" + name + "/crl-audit.json"
  }

  function SlotOf(date: string, k: nat): Slot {
    Slot(SlotName(date, k), AuditUrl(SlotName(date, k)))
  }

  /** get_cache_path, as a file name inside the cache directory. */
  function CachePath(name: string): string {
    name + ".json"
  }

  /** Different slot names never share a cache file. */
  lemma CachePathInjective(a: string, b: string)
    requires CachePath(a) == CachePath(b)
    ensures a == b
  {
    assert CachePath(a)[..|a|] == a;
    assert CachePath(b)[..|b|] == b;
  }

  /** The inner loop of get_file_urls: generations `0 .. FILES_PER_DAY - 1` of one day. */
  function DaySlots(date: string): (r: seq<Slot>)
    ensures |r| == FILES_PER_DAY
  {
    seq(FILES_PER_DAY, k requires 0 <= k => SlotOf(date, k))
  }

  /** get_file_urls over an explicit list of dates. */
  function FileUrls(dates: seq<string>): (r: seq<Slot>)
    ensures |r| == |dates| * FILES_PER_DAY
    ensures forall j :: 0 <= j < |r| ==> r[j] == SlotOf(dates[j / FILES_PER_DAY], j % FILES_PER_DAY)
    decreases |dates|
  {
    if |dates| == 0 then []
    else
      var day := DaySlots(dates[0]);
      var rest := FileUrls(dates[1..]);
      assert forall j :: FILES_PER_DAY <= j < |day + rest| ==> (day + rest)[j] == rest[j - FILES_PER_DAY];
      day + rest
  }

  /** The window the program works on: FILES_PER_DAY slots for each of DAYS_TO_FETCH days. */
  function ExpectedSlots(dateOf: nat -> string): (r: seq<Slot>)
    ensures |r| == DAYS_TO_FETCH * FILES_PER_DAY
    ensures forall j :: 0 <= j < |r| ==> r[j] == SlotOf(dateOf(j / FILES_PER_DAY), j % FILES_PER_DAY)
  {
    FileUrls(FileDates(dateOf))
  }

  /** Every slot in the window is named `date-k` and fetched from its own `crl-audit.json`. */
  lemma ExpectedSlotShape(dateOf: nat -> string, s: Slot)
    requires s in ExpectedSlots(dateOf)
    ensures exists i: nat, k: nat ::
              (i < DAYS_TO_FETCH && k < FILES_PER_DAY
               && s.name == dateOf(i) + "-" + NatToString(k)
               && s.url == BASE_URL + "/" + s.name + "/crl-audit.json")
  {
    var r := ExpectedSlots(dateOf);
    var j :| 0 <= j < |r| && r[j] == s;
    var i: nat, k: nat := j / FILES_PER_DAY, j % FILES_PER_DAY;
    assert i < DAYS_TO_FETCH && k < FILES_PER_DAY;
  }

  /** The cache files of every slot of the window. */
  function ExpectedFiles(dates: seq<string>): set<string> {
    set s | s in FileUrls(dates) :: CachePath(s.name)
  }

  /** check_for_updates: the window's slots whose cache file is absent, in window order. */
  function CheckForUpdates(dates: seq<string>, cacheFiles: set<string>): (r: seq<Slot>)
    ensures SubsequenceOf(r, FileUrls(dates))
    ensures forall s :: s in r <==> s in FileUrls(dates) && CachePath(s.name) !in cacheFiles
    ensures forall s :: multiset(r)[s] == if CachePath(s.name) in cacheFiles then 0 else multiset(FileUrls(dates))[s]
  {
    Filter(FileUrls(dates), (s: Slot) => CachePath(s.name) !in cacheFiles)
  }

  /** The fetch loop of update_files: fetch_json_data returns early when the cache file
      exists, writes the document when the GET succeeds, and leaves the cache alone when
      it fails. */
  function FetchAll(cache: map<string, Document>, needs: seq<Slot>, remote: map<string, Document>)
    : (r: map<string, Document>)
    ensures forall f :: f in cache ==> f in r && r[f] == cache[f]
    ensures forall f :: f in r <==> f in cache || exists s :: s in needs && s.url in remote && f == CachePath(s.name)
    decreases |needs|
  {
    if |needs| == 0 then cache
    else
      var s := needs[0];
      var path := CachePath(s.name);
      var next := if path !in cache && s.url in remote then cache[path := remote[s.url]] else cache;
      assert needs == [s] + needs[1..];
      FetchAll(next, needs[1..], remote)
  }

  /** A needed slot that was not cached and whose URL answered holds what was fetched,
      provided every needed slot is fetched from its own URL. */
  lemma {:induction false} FetchAllStores(cache: map<string, Document>, needs: seq<Slot>, remote: map<string, Document>,
                                          t: Slot)
    requires forall s :: s in needs ==> s.url == AuditUrl(s.name)
    requires t in needs && t.url in remote && CachePath(t.name) !in cache
    ensures CachePath(t.name) in FetchAll(cache, needs, remote)
    ensures FetchAll(cache, needs, remote)[CachePath(t.name)] == remote[t.url]
    decreases |needs|
  {
    var s := needs[0];
    var path := CachePath(s.name);
    var next := if path !in cache && s.url in remote then cache[path := remote[s.url]] else cache;
    assert needs == [s] + needs[1..];
    if t.name == s.name {
      assert t == s;
    } else {
      if CachePath(t.name) == path {
        CachePathInjective(t.name, s.name);
      }
      assert t in needs[1..];
      FetchAllStores(next, needs[1..], remote, t);
    }
  }

  /** What update_files leaves behind: the files it removed and the new cache. */
  datatype Sweep = Sweep(removed: set<string>, cache: map<string, Document>)

  /** update_files: delete every cache file that is not the file of a slot in the window,
      then fetch each needed slot. */
  function UpdateFiles(dates: seq<string>, cache: map<string, Document>, needs: seq<Slot>,
                       remote: map<string, Document>): (r: Sweep)
    ensures forall f :: f in r.removed <==> f in cache && f !in ExpectedFiles(dates)
    ensures forall f :: f in cache && f in ExpectedFiles(dates) ==> f in r.cache && r.cache[f] == cache[f]
    ensures forall f :: f in r.cache ==>
              (f in cache && f in ExpectedFiles(dates)) || exists s :: s in needs && s.url in remote && f == CachePath(s.name)
    ensures forall s :: s in needs && s.url in remote ==> CachePath(s.name) in r.cache
    ensures (forall s :: s in needs ==> s.url == AuditUrl(s.name)) ==>
      forall s :: s in needs && s.url in remote && CachePath(s.name) !in cache ==> r.cache[CachePath(s.name)] == remote[s.url]
  {
    var expected := ExpectedFiles(dates);
    var kept := map f | f in cache && f in expected :: cache[f];
    var fetched := FetchAll(kept, needs, remote);
    assert (forall s :: s in needs ==> s.url == AuditUrl(s.name)) ==>
      forall s :: s in needs && s.url in remote && CachePath(s.name) !in cache ==> fetched[CachePath(s.name)] == remote[s.url]
    by {
      if forall s :: s in needs ==> s.url == AuditUrl(s.name) {
        forall s | s in needs && s.url in remote && CachePath(s.name) !in cache
          ensures fetched[CachePath(s.name)] == remote[s.url]
        {
          FetchAllStores(kept, needs, remote, s);
        }
      }
    }
    Sweep(cache.Keys - expected, fetched)
  }

  /** The first two steps of main: work out what is missing and, only when something
      is, sweep and fetch. */
  function Refresh(dates: seq<string>, cache: map<string, Document>, remote: map<string, Document>)
    : (r: map<string, Document>)
  {
    var needs := CheckForUpdates(dates, cache.Keys);
    if |needs| > 0 then UpdateFiles(dates, cache, needs, remote).cache else cache
  }

  /** A slot of the window is fetched from its own URL and cached in an expected file. */
  lemma SlotInWindow(dates: seq<string>, t: Slot)
    requires t in FileUrls(dates)
    ensures t.url == AuditUrl(t.name)
    ensures CachePath(t.name) in ExpectedFiles(dates)
  {
    var urls := FileUrls(dates);
    var j :| 0 <= j < |urls| && urls[j] == t;
  }

  /** Every slot that check_for_updates reports is fetched from its own URL and cached in
      an expected file. */
  lemma NeedsInWindow(dates: seq<string>, cacheFiles: set<string>)
    ensures forall t :: t in CheckForUpdates(dates, cacheFiles) ==>
              t.url == AuditUrl(t.name) && CachePath(t.name) in ExpectedFiles(dates)
  {
    forall t | t in CheckForUpdates(dates, cacheFiles)
      ensures t.url == AuditUrl(t.name) && CachePath(t.name) in ExpectedFiles(dates)
    {
      SlotInWindow(dates, t);
    }
  }

  /** After a refresh, a slot of the window is cached iff it already was or its URL
      answered. */
  lemma RefreshCoverage(dates: seq<string>, cache: map<string, Document>, remote: map<string, Document>,
                        s: Slot)
    requires s in FileUrls(dates)
    ensures CachePath(s.name) in Refresh(dates, cache, remote) <==> CachePath(s.name) in cache || s.url in remote
  {
    var needs := CheckForUpdates(dates, cache.Keys);
    var path := CachePath(s.name);
    SlotInWindow(dates, s);
    if path !in cache {
      assert s in needs;
      var sw := UpdateFiles(dates, cache, needs, remote);
      assert |needs| > 0;
      if path in sw.cache && s.url !in remote {
        var t :| t in needs && t.url in remote && path == CachePath(t.name);
        CachePathInjective(t.name, s.name);
        SlotInWindow(dates, t);
      }
    }
  }

  /** A slot of the window that was already cached keeps its cached content. */
  lemma RefreshKeepsCached(dates: seq<string>, cache: map<string, Document>, remote: map<string, Document>,
                           s: Slot)
    requires s in FileUrls(dates)
    requires CachePath(s.name) in cache
    ensures CachePath(s.name) in Refresh(dates, cache, remote)
    ensures Refresh(dates, cache, remote)[CachePath(s.name)] == cache[CachePath(s.name)]
  {
    SlotInWindow(dates, s);
  }

  /** A slot of the window that was missing and whose URL answered holds what was fetched. */
  lemma RefreshStoresFetched(dates: seq<string>, cache: map<string, Document>, remote: map<string, Document>,
                             s: Slot)
    requires s in FileUrls(dates)
    requires CachePath(s.name) !in cache && s.url in remote
    ensures CachePath(s.name) in Refresh(dates, cache, remote)
    ensures Refresh(dates, cache, remote)[CachePath(s.name)] == remote[s.url]
  {
    var needs := CheckForUpdates(dates, cache.Keys);
    NeedsInWindow(dates, cache.Keys);
    assert s in needs;
    var sw := UpdateFiles(dates, cache, needs, remote);
    assert |needs| > 0;
  }

  /** Nothing outside the window survives a refresh that fetched anything, and a refresh
      with nothing to fetch touches nothing (main only calls update_files when
      check_for_updates returned something). */
  lemma RefreshSweep(dates: seq<string>, cache: map<string, Document>, remote: map<string, Document>)
    ensures |CheckForUpdates(dates, cache.Keys)| > 0 ==>
      forall f :: f in Refresh(dates, cache, remote) ==> f in ExpectedFiles(dates)
    ensures |CheckForUpdates(dates, cache.Keys)| == 0 ==> Refresh(dates, cache, remote) == cache
  {
    NeedsInWindow(dates, cache.Keys);
  }
}

=== FILE: strings.dfy ===
/** The string operations the dashboard relies on, each with the meaning Python gives it:
    `sub in s`, `startswith`, `endswith`, `rstrip(c)`, `split(c)[0]`, `lower()`, the
    ordering `<=` on `str`, `str(n)` for a natural number, and `int(s)`. */
module Strings {
  import opened Results

  predicate StartsWith(s: string, prefix: string) {
    |prefix| <= |s| && s[..|prefix|] == prefix
  }

  predicate EndsWith(s: string, suffix: string) {
    |suffix| <= |s| && s[|s| - |suffix|..] == suffix
  }

  /** `sub` occurs in `s` starting at index `i`. */
  predicate OccursAt(s: string, sub: string, i: int) {
    0 <= i && i + |sub| <= |s| && s[i..i + |sub|] == sub
  }

  /** Python's `sub in s`, computed by trying every start position in turn. */
  predicate Contains(s: string, sub: string)
    decreases |s|
  {
    StartsWith(s, sub) || (|s| > 0 && Contains(s[1..], sub))
  }

  /** The scan agrees with the positional definition of a substring. */
  lemma {:induction false} ContainsIffOccurs(s: string, sub: string)
    ensures Contains(s, sub) <==> exists i :: OccursAt(s, sub, i)
    decreases |s|
  {
    if StartsWith(s, sub) {
      assert OccursAt(s, sub, 0);
    } else if |s| > 0 {
      ContainsIffOccurs(s[1..], sub);
      if Contains(s[1..], sub) {
        var j :| OccursAt(s[1..], sub, j);
        assert s[1..][j..j + |sub|] == s[j + 1..j + 1 + |sub|];
        assert OccursAt(s, sub, j + 1);
      }
      if i :| OccursAt(s, sub, i) {
        assert i != 0;
        assert s[1..][i - 1..i - 1 + |sub|] == s[i..i + |sub|];
        assert OccursAt(s[1..], sub, i - 1);
      }
    }
  }

  /** A string containing `sub` still contains it after anything is put around it. */
  lemma ContainsInContext(pre: string, s: string, post: string, sub: string)
    requires Contains(s, sub)
    ensures Contains(pre + s + post, sub)
  {
    ContainsIffOccurs(s, sub);
    var i :| OccursAt(s, sub, i);
    var t := pre + s + post;
    assert t[|pre| + i..|pre| + i + |sub|] == s[i..i + |sub|];
    assert OccursAt(t, sub, |pre| + i);
    ContainsIffOccurs(t, sub);
  }

  /** Python's `s.rstrip(c)` for a single character `c`. */
  function RStrip(s: string, c: char): (r: string)
    ensures |r| <= |s| && s[..|r|] == r
    ensures |r| == 0 || r[|r| - 1] != c
    ensures forall i :: |r| <= i < |s| ==> s[i] == c
    decreases |s|
  {
    if |s| > 0 && s[|s| - 1] == c then RStrip(s[..|s| - 1], c) else s
  }

  /** Python's `s.split(c)[0]`: everything before the first `c`, or all of `s`. */
  function BeforeFirst(s: string, c: char): (r: string)
    ensures |r| <= |s| && s[..|r|] == r
    ensures c !in r
    ensures |r| < |s| ==> s[|r|] == c
    decreases |s|
  {
    if |s| == 0 then s
    else if s[0] == c then []
    else [s[0]] + BeforeFirst(s[1..], c)
  }

  function LowerChar(c: char): char {
    if 'A' <= c <= 'Z' then (c as int - 'A' as int + 'a' as int) as char else c
  }

  /** Python's `s.lower()` restricted to ASCII letters. */
  function Lower(s: string): (r: string)
    ensures |r| == |s|
    ensures forall i :: 0 <= i < |r| ==> !('A' <= r[i] <= 'Z')
    ensures forall i :: 0 <= i < |s| && !('A' <= s[i] <= 'Z') ==> r[i] == s[i]
    ensures forall i :: 0 <= i < |s| && 'A' <= s[i] <= 'Z' ==> r[i] == (s[i] as int - 'A' as int + 'a' as int) as char
  {
    seq(|s|, i requires 0 <= i < |s| => LowerChar(s[i]))
  }

  /** Python's `a <= b` on `str`: lexicographic by code point. */
  predicate LexLe(a: string, b: string)
    decreases |a|
  {
    |a| == 0 || (|b| > 0 && (a[0] < b[0] || (a[0] == b[0] && LexLe(a[1..], b[1..]))))
  }

  lemma {:induction false} LexLeRefl(a: string)
    ensures LexLe(a, a)
    decreases |a|
  {
    if |a| > 0 {
      LexLeRefl(a[1..]);
    }
  }

  lemma {:induction false} LexLeTotal(a: string, b: string)
    ensures LexLe(a, b) || LexLe(b, a)
    decreases |a|
  {
    if |a| > 0 && |b| > 0 && a[0] == b[0] {
      LexLeTotal(a[1..], b[1..]);
    }
  }

  lemma {:induction false} LexLeTrans(a: string, b: string, c: string)
    requires LexLe(a, b) && LexLe(b, c)
    ensures LexLe(a, c)
    decreases |a|
  {
    if |a| > 0 && a[0] == b[0] && b[0] == c[0] {
      LexLeTrans(a[1..], b[1..], c[1..]);
    }
  }

  lemma {:induction false} LexLeAntisym(a: string, b: string)
    requires LexLe(a, b) && LexLe(b, a)
    ensures a == b
    decreases |a|
  {
    if |a| > 0 {
      LexLeAntisym(a[1..], b[1..]);
      assert a == [a[0]] + a[1..] && b == [b[0]] + b[1..];
    }
  }

  predicate IsDigit(c: char) {
    '0' <= c <= '9'
  }

  predicate AllDigits(s: string) {
    forall i :: 0 <= i < |s| ==> IsDigit(s[i])
  }

  function DigitChar(d: nat): (c: char)
    requires d < 10
    ensures IsDigit(c)
  {
    (d + '0' as int) as char
  }

  function DigitValue(c: char): nat
    requires IsDigit(c)
  {
    c as int - '0' as int
  }

  /** Python's `str(n)` for a natural number. */
  function NatToString(n: nat): (r: string)
    ensures |r| > 0 && AllDigits(r)
    decreases n
  {
    if n < 10 then [DigitChar(n)] else NatToString(n / 10) + [DigitChar(n % 10)]
  }

  /** The value of a run of decimal digits, most significant first. */
  function DigitsValue(s: string): nat
    requires AllDigits(s)
    decreases |s|
  {
    if |s| == 0 then 0 else DigitsValue(s[..|s| - 1]) * 10 + DigitValue(s[|s| - 1])
  }

  /** Python's `int(s)` on an optional sign followed by one or more ASCII digits;
      `None` stands for the `ValueError` it raises on anything else. */
  function ParseInt(s: string): (r: Option<int>)
    ensures r.Some? ==> |s| > 0
    ensures r.Some? && !(s[0] in "+-") ==> AllDigits(s)
    ensures r.Some? && s[0] in "+-" ==> |s| > 1 && AllDigits(s[1..])
  {
    if |s| > 0 && s[0] in "+-" then
      if |s| > 1 && AllDigits(s[1..]) then
        Some(if s[0] == '-' then -(DigitsValue(s[1..]) as int) else DigitsValue(s[1..]))
      else None
    else if |s| > 0 && AllDigits(s) then Some(DigitsValue(s))
    else None
  }

  lemma {:induction false} DigitsValueOfNatToString(n: nat)
    ensures DigitsValue(NatToString(n)) == n
    decreases n
  {
    var s := NatToString(n);
    if n >= 10 {
      DigitsValueOfNatToString(n / 10);
      assert s[..|s| - 1] == NatToString(n / 10);
    }
  }

  /** Printing a natural number and parsing it back gives the number. */
  lemma ParseNatToString(n: nat)
    ensures ParseInt(NatToString(n)) == Some(n)
  {
    DigitsValueOfNatToString(n);
    assert NatToString(n)[0] !in "+-";
  }
}

=== FILE: timeline.dfy ===
/** load_cached_data (src/main.py): folding the cached snapshots of the window, slot by
    slot and entry by entry, into a per-issuer table keyed by the entry's `Url`.

    The Python result is a dict, whose iteration order is insertion order; a `Table`
    keeps that order explicitly next to the map. */
module Timeline {
  import opened Strings
  import opened Seqs
  import opened Audit
  import opened Slots

  const NOT_FRESH: string := "Not Fresh"

  /** What the table records for one issuer in one slot, with load_cached_data's
      defaults for missing fields already applied. */
  datatype Status = Status(kind: string, revocations: Count, errors: string, age: string, sha256Sum: string)

  /** One issuer: the `url` and `issuer` subject taken from the first entry seen for it,
      and its statuses by slot identifier. */
  datatype Issuer = Issuer(url: string, subject: string, statuses: map<string, Status>)

  /** The `issuer_statuses` dict: keys in insertion order and their values. */
  datatype Table = Table(order: seq<string>, rows: map<string, Issuer>)

  /** The representation invariant of an insertion-ordered dict. */
  ghost predicate WellFormed(t: Table) {
    && (forall i, j :: 0 <= i < j < |t.order| ==> t.order[i] != t.order[j])
    && (forall k :: k in t.rows <==> k in t.order)
  }

  /** No status in the table comes from an entry marked "Not Fresh". */
  ghost predicate NoStaleStatus(t: Table) {
    forall k, s :: k in t.rows && s in t.rows[k].statuses ==> !Contains(t.rows[k].statuses[s].kind, NOT_FRESH)
  }

  function KindOf(e: Entry): string {
    e.kind.GetOr("N/A")
  }

  /** The entry is kept: its kind does not contain "Not Fresh". */
  predicate IsFresh(e: Entry) {
    !Contains(KindOf(e), NOT_FRESH)
  }

  /** The dict key of an entry. */
  function KeyOf(e: Entry): string {
    e.url.GetOr("N/A")
  }

  function StatusOf(e: Entry): Status {
    Status(KindOf(e), e.numRevocations.GetOr(NonIntCount("0")), e.errors.GetOr(""), e.age.GetOr("N/A"),
           e.sha256Sum.GetOr("N/A"))
  }

  /** The record created the first time a key is seen. Its `url` falls back to the empty
      string while the key falls back to "N/A". */
  function NewIssuer(e: Entry): Issuer {
    Issuer(e.url.GetOr(""), e.issuerSubject.GetOr("N/A"), map[])
  }

  /** An entry together with the slot it was read from. */
  datatype Item = Item(slot: string, entry: Entry)

  /** The item is kept and belongs to issuer `k`. */
  predicate CountsFor(x: Item, k: string) {
    IsFresh(x.entry) && KeyOf(x.entry) == k
  }

  /** The body of the inner loop of load_cached_data. */
  function AddEntry(t: Table, x: Item): Table {
    if !IsFresh(x.entry) then t
    else
      var key := KeyOf(x.entry);
      var t1 := if key in t.rows then t else Table(t.order + [key], t.rows[key := NewIssuer(x.entry)]);
      var issuer := t1.rows[key];
      Table(t1.order, t1.rows[key := issuer.(statuses := issuer.statuses[x.slot := StatusOf(x.entry)])])
  }

  /** The table after processing `items` in order, starting from an empty dict. */
  function Fold(items: seq<Item>): Table
    decreases |items|
  {
    if |items| == 0 then Table([], map[])
    else AddEntry(Fold(items[..|items| - 1]), items[|items| - 1])
  }

  /** Folding keeps the dict well formed and never records a "Not Fresh" entry. */
  lemma {:induction false} FoldInvariants(items: seq<Item>)
    ensures WellFormed(Fold(items))
    ensures NoStaleStatus(Fold(items))
    decreases |items|
  {
    if |items| > 0 {
      var n := |items| - 1;
      FoldInvariants(items[..n]);
      var prev := Fold(items[..n]);
      var x := items[n];
      if IsFresh(x.entry) && KeyOf(x.entry) !in prev.rows {
        assert Fold(items).order == prev.order + [KeyOf(x.entry)];
      }
    }
  }

  lemma FoldStep(items: seq<Item>, x: Item)
    ensures Fold(items + [x]) == AddEntry(Fold(items), x)
  {
    assert (items + [x])[..|items|] == items;
  }

  /** A key is in the table iff some kept entry carries it. */
  lemma {:induction false} FoldKeys(items: seq<Item>, k: string)
    ensures k in Fold(items).rows <==> exists i :: 0 <= i < |items| && CountsFor(items[i], k)
    decreases |items|
  {
    if |items| > 0 {
      var n := |items| - 1;
      var prefix := items[..n];
      FoldKeys(prefix, k);
      assert items == prefix + [items[n]];
      FoldStep(prefix, items[n]);
      if exists i :: 0 <= i < |items| && CountsFor(items[i], k) {
        var i :| 0 <= i < |items| && CountsFor(items[i], k);
        if i < n {
          assert CountsFor(prefix[i], k);
        }
      }
      if exists i :: 0 <= i < n && CountsFor(prefix[i], k) {
        var i :| 0 <= i < n && CountsFor(prefix[i], k);
        assert CountsFor(items[i], k);
      }
    }
  }

  /** `items[i]` is the first kept entry for issuer `k`. */
  ghost predicate FirstFor(items: seq<Item>, k: string, i: int) {
    0 <= i < |items| && CountsFor(items[i], k) && forall j :: 0 <= j < i ==> !CountsFor(items[j], k)
  }

  /** An issuer's `url` and `issuer` subject come from the first kept entry for its key;
      later entries for the same key never change them. */
  lemma {:induction false} FoldFirstWins(items: seq<Item>, k: string, i: int)
    requires FirstFor(items, k, i)
    ensures k in Fold(items).rows
    ensures Fold(items).rows[k].url == NewIssuer(items[i].entry).url
    ensures Fold(items).rows[k].subject == NewIssuer(items[i].entry).subject
    decreases |items|
  {
    var n := |items| - 1;
    var prefix := items[..n];
    assert items == prefix + [items[n]];
    FoldStep(prefix, items[n]);
    if i < n {
      assert FirstFor(prefix, k, i);
      FoldFirstWins(prefix, k, i);
    } else {
      FoldKeys(prefix, k);
      assert k !in Fold(prefix).rows;
    }
  }

  /** Processing one more item either leaves the key order alone or appends the item's
      key, when the item is kept and its key is new. */
  lemma FoldOrderGrows(items: seq<Item>, x: Item)
    ensures || Fold(items + [x]).order == Fold(items).order
            || (&& CountsFor(x, KeyOf(x.entry))
                && KeyOf(x.entry) !in Fold(items).rows
                && Fold(items + [x]).order == Fold(items).order + [KeyOf(x.entry)])
  {
    FoldStep(items, x);
  }

  /** The first kept entry for a key already present before the last item lies before
      the last item, and is the first one in the shorter stream too. */
  lemma FirstBeforeLast(items: seq<Item>, k: string, i: int)
    requires |items| > 0 && FirstFor(items, k, i)
    requires k in Fold(items[..|items| - 1]).rows
    ensures i < |items| - 1 && FirstFor(items[..|items| - 1], k, i)
  {
    var n := |items| - 1;
    FoldKeys(items[..n], k);
    var i' :| 0 <= i' < n && CountsFor(items[..n][i'], k);
    assert CountsFor(items[i'], k);
  }

  /** The first kept entry for a key absent before the last item is the last item. */
  lemma FirstIsLast(items: seq<Item>, k: string, j: int)
    requires |items| > 0 && FirstFor(items, k, j)
    requires k !in Fold(items[..|items| - 1]).rows
    ensures j == |items| - 1
  {
    var n := |items| - 1;
    FoldKeys(items[..n], k);
    assert forall i :: 0 <= i < n ==> items[..n][i] == items[i];
  }

  /** The dict's key order is the order in which each key's first kept entry was read. */
  lemma {:induction false} FoldOrder(items: seq<Item>, p: int, q: int, i: int, j: int)
    requires 0 <= p < q < |Fold(items).order|
    requires FirstFor(items, Fold(items).order[p], i) && FirstFor(items, Fold(items).order[q], j)
    ensures i < j
    decreases |items|
  {
    var n := |items| - 1;
    var prefix := items[..n];
    assert items == prefix + [items[n]];
    FoldOrderGrows(prefix, items[n]);
    FoldInvariants(prefix);
    var before := Fold(prefix).order;
    var order := Fold(items).order;
    var kp, kq := order[p], order[q];
    assert kp == before[p] && kp in Fold(prefix).rows;
    FirstBeforeLast(items, kp, i);
    if q < |before| {
      assert kq == before[q] && kq in Fold(prefix).rows;
      FirstBeforeLast(items, kq, j);
      FoldOrder(prefix, p, q, i, j);
    } else {
      FirstIsLast(items, kq, j);
    }
  }

  /** An issuer has a status for slot `s` iff some kept entry for it was read from `s`. */
  lemma {:induction false} FoldStatusSlots(items: seq<Item>, k: string, s: string)
    requires k in Fold(items).rows
    ensures s in Fold(items).rows[k].statuses <==>
              exists i :: 0 <= i < |items| && CountsFor(items[i], k) && items[i].slot == s
    decreases |items|
  {
    var n := |items| - 1;
    var prefix := items[..n];
    assert items == prefix + [items[n]];
    FoldStep(prefix, items[n]);
    FoldKeys(prefix, k);
    if k in Fold(prefix).rows {
      FoldStatusSlots(prefix, k, s);
    }
    if exists i :: 0 <= i < |items| && CountsFor(items[i], k) && items[i].slot == s {
      var i :| 0 <= i < |items| && CountsFor(items[i], k) && items[i].slot == s;
      if i < n {
        assert CountsFor(prefix[i], k) && prefix[i].slot == s;
      }
    }
    if exists i :: 0 <= i < n && CountsFor(prefix[i], k) && prefix[i].slot == s {
      var i :| 0 <= i < n && CountsFor(prefix[i], k) && prefix[i].slot == s;
      assert CountsFor(items[i], k) && items[i].slot == s;
    }
  }

  /** `items[i]` is the last kept entry for issuer `k` read from slot `s`. */
  ghost predicate LastFor(items: seq<Item>, k: string, s: string, i: int) {
    && 0 <= i < |items| && CountsFor(items[i], k) && items[i].slot == s
    && forall j :: i < j < |items| ==> !(CountsFor(items[j], k) && items[j].slot == s)
  }

  /** A later entry for the same issuer and slot overwrites an earlier one. */
  lemma {:induction false} FoldLastWins(items: seq<Item>, k: string, s: string, i: int)
    requires LastFor(items, k, s, i)
    ensures k in Fold(items).rows && s in Fold(items).rows[k].statuses
    ensures Fold(items).rows[k].statuses[s] == StatusOf(items[i].entry)
    decreases |items|
  {
    var n := |items| - 1;
    var prefix := items[..n];
    assert items == prefix + [items[n]];
    FoldStep(prefix, items[n]);
    if i < n {
      assert LastFor(prefix, k, s, i);
      FoldLastWins(prefix, k, s, i);
      assert !(CountsFor(items[n], k) && items[n].slot == s);
    }
  }

  /** The entries of one cached slot, or nothing when the file is missing or unreadable. */
  function SlotItems(name: string, cache: map<string, Document>): (r: seq<Item>)
    ensures forall x :: x in r <==>
              x.slot == name && CachePath(name) in cache && cache[CachePath(name)].Snapshot?
              && x.entry in cache[CachePath(name)].entries
  {
    var path := CachePath(name);
    if path in cache && cache[path].Snapshot? then
      var es := cache[path].entries;
      var r := Map(es, (e: Entry) => Item(name, e));
      assert forall x :: x in r ==> x.entry in es by {
        forall x | x in r
          ensures x.entry in es
        {
          var j :| 0 <= j < |r| && r[j] == x;
        }
      }
      assert forall e :: e in es ==> Item(name, e) in r by {
        forall e | e in es
          ensures Item(name, e) in r
        {
          var j :| 0 <= j < |es| && es[j] == e;
          assert r[j] == Item(name, e);
        }
      }
      r
    else []
  }

  /** Every entry of the slots `names`, in the order load_cached_data visits them. */
  function Stream(names: seq<string>, cache: map<string, Document>): (r: seq<Item>)
    ensures forall x :: x in r ==> x.slot in names
    decreases |names|
  {
    if |names| == 0 then []
    else Stream(names[..|names| - 1], cache) + SlotItems(names[|names| - 1], cache)
  }

  lemma {:induction false} StreamMembership(names: seq<string>, cache: map<string, Document>, x: Item)
    ensures x in Stream(names, cache) <==>
              x.slot in names && CachePath(x.slot) in cache && cache[CachePath(x.slot)].Snapshot?
              && x.entry in cache[CachePath(x.slot)].entries
    decreases |names|
  {
    if |names| > 0 {
      var n := |names| - 1;
      StreamMembership(names[..n], cache, x);
      assert names == names[..n] + [names[n]];
    }
  }

  /** The identifiers of the window in the order `sorted(get_file_urls())` gives them. */
  function SortedSlotNames(dates: seq<string>): (r: seq<string>)
    ensures |r| == |dates| * FILES_PER_DAY
    ensures SortedBy(r, (n: string) => n)
    ensures multiset(r) == multiset(Map(FileUrls(dates), (s: Slot) => s.name))
  {
    SortBy(Map(FileUrls(dates), (s: Slot) => s.name), (n: string) => n)
  }

  /** The inner loop of load_cached_data over the entries of one readable slot. */
  method LoadSlot(table: Table, name: string, entries: seq<Entry>, ghost done: seq<Item>)
    returns (t: Table)
    requires table == Fold(done)
    ensures t == Fold(done + Map(entries, (e: Entry) => Item(name, e)))
  {
    ghost var items := Map(entries, (e: Entry) => Item(name, e));
    t := table;
    var j := 0;
    assert done + items[..0] == done;
    while j < |entries|
      invariant 0 <= j <= |entries|
      invariant t == Fold(done + items[..j])
    {
      var x := Item(name, entries[j]);
      assert items[j] == x;
      assert done + items[..j + 1] == (done + items[..j]) + [x];
      FoldStep(done + items[..j], x);
      if IsFresh(entries[j]) {
        var key := KeyOf(entries[j]);
        if key !in t.rows {
          t := Table(t.order + [key], t.rows[key := NewIssuer(entries[j])]);
        }
        var issuer := t.rows[key];
        t := Table(t.order, t.rows[key := issuer.(statuses := issuer.statuses[name := StatusOf(entries[j])])]);
      }
      j := j + 1;
    }
    assert items[..|entries|] == items;
  }

  lemma StreamStep(names: seq<string>, name: string, cache: map<string, Document>)
    ensures Stream(names + [name], cache) == Stream(names, cache) + SlotItems(name, cache)
  {
    assert (names + [name])[..|names|] == names;
  }

  /** Every status in the table of a window comes from a readable cached slot of it. */
  lemma StatusFromCache(names: seq<string>, cache: map<string, Document>, k: string, s: string)
    requires k in Fold(Stream(names, cache)).rows && s in Fold(Stream(names, cache)).rows[k].statuses
    ensures s in names && CachePath(s) in cache && cache[CachePath(s)].Snapshot?
  {
    var items := Stream(names, cache);
    FoldStatusSlots(items, k, s);
    var i :| 0 <= i < |items| && CountsFor(items[i], k) && items[i].slot == s;
    StreamMembership(names, cache, items[i]);
  }

  /** Every status in `t` is for one of the slots `names` whose cached file is readable. */
  ghost predicate StatusesCached(t: Table, names: seq<string>, cache: map<string, Document>) {
    forall k, s :: k in t.rows && s in t.rows[k].statuses ==>
      s in names && CachePath(s) in cache && cache[CachePath(s)].Snapshot?
  }

  lemma StatusesFromCache(names: seq<string>, cache: map<string, Document>)
    ensures StatusesCached(Fold(Stream(names, cache)), names, cache)
  {
    forall k, s | k in Fold(Stream(names, cache)).rows && s in Fold(Stream(names, cache)).rows[k].statuses
      ensures s in names && CachePath(s) in cache && cache[CachePath(s)].Snapshot?
    {
      StatusFromCache(names, cache, k, s);
    }
  }

  /** One iteration of the outer loop of load_cached_data: a missing or unreadable file
      adds nothing. */
  method LoadOneSlot(table: Table, ghost before: seq<string>, name: string, cache: map<string, Document>)
    returns (t: Table)
    requires table == Fold(Stream(before, cache))
    ensures t == Fold(Stream(before + [name], cache))
  {
    StreamStep(before, name, cache);
    var path := CachePath(name);
    if path in cache && cache[path].Snapshot? {
      t := LoadSlot(table, name, cache[path].entries, Stream(before, cache));
    } else {
      assert Stream(before, cache) + SlotItems(name, cache) == Stream(before, cache);
      t := table;
    }
  }

  /** The outer loop of load_cached_data over the slots `names`. */
  method LoadSlots(names: seq<string>, cache: map<string, Document>) returns (table: Table)
    ensures table == Fold(Stream(names, cache))
  {
    table := Table([], map[]);
    var i := 0;
    while i < |names|
      invariant 0 <= i <= |names|
      invariant table == Fold(Stream(names[..i], cache))
    {
      table := LoadOneSlot(table, names[..i], names[i], cache);
      assert names[..i + 1] == names[..i] + [names[i]];
      i := i + 1;
    }
    assert names[..i] == names;
  }

  /** load_cached_data: the issuer table and the slot identifiers of the window. */
  method LoadCachedData(dates: seq<string>, cache: map<string, Document>)
    returns (table: Table, fileDates: seq<string>)
    ensures fileDates == SortedSlotNames(dates)
    ensures table == Fold(Stream(fileDates, cache))
    ensures WellFormed(table) && NoStaleStatus(table)
    ensures StatusesCached(table, fileDates, cache)
  {
    fileDates := SortedSlotNames(dates);
    table := LoadSlots(fileDates, cache);
    FoldInvariants(Stream(fileDates, cache));
    StatusesFromCache(fileDates, cache);
  }
}
